=== FILE: README.md ===
# contact-sync, modelled in Dafny

contact-sync copies people from a spreadsheet into the macOS address book.
Each data row holds a first name, last name, phone, email, location, social
handle and birthday. For each row the program finds the matching contact,
merges the row's values into it, or creates a new contact. It has two
engines, and this project models both:

- **The current engine** (`contact_manager.py` with `phone_utils.py`):
  - It matches names in two passes, an exact pass on a normalised
    "first last" key and then a fuzzy pass scoring above 90.
  - Among several candidates, the one whose stored numbers include the
    row's phone (after normalisation) is preferred.
  - It merges append-only. Phones are compared by their canonical digits;
    a number without a leading "+" is stored with a "+1" country code, and
    one with it is stored verbatim. Emails are compared by their
    stripped, lower-cased key. A birthday is set only when none is
    stored, and a date in 2024 is re-stamped to 1900.
  - It updates a contact only when the change summary is non-empty.
- **The legacy engine** (`updater.py`):
  - It matches names exactly and case-sensitively: on the last name, plus
    the first name in skeptical mode.
  - It de-duplicates numbers and emails by raw string equality.
  - Every parseable birthday overwrites the stored one.

Representation:

- The address book is a sequence of `Contact` values, with positions
  standing in for object identity.
- The operator's y/n replies are a sequence of booleans. Once that runs
  dry, every reply reads as "no".
- `fuzz.ratio` and the birthday parser are an `Oracle` passed to every
  operation:
  - the ratio is any function into 0..100;
  - the parser is any function from text to an optional date.
- An empty spreadsheet cell (None in the source) is the empty string.
- A Python exception that escapes the batch is an `Abort` result.

Modules:

| file | module | holds |
|---|---|---|
| text.dfy | Text | ASCII `strip`/`lower`, `\n`.join, zero-padded decimals |
| records.dfy | Records | the shared data model, the operator's prompts, the row-limit rule |
| phone_utils.dfy | PhoneUtils | `normalize_phone_number`, `format_phone_number_for_storage` |
| phone_examples.dfy | PhoneExamples | the four spellings of a US number used by the tests, for any digit groups |
| contact_manager.dfy | ContactManager | the current engine |
| contact_examples.dfy | ContactExamples | the repository's test scenarios for the current engine, for all names and digits |
| updater.dfy | Updater | the legacy engine |
| engines.dfy | Engines | where the two engines agree and where they part |

## Model

| member | source | states |
|---|---|---|
| Text.Strip | contact_manager.py:17-23 | The result of `str.strip()` is a slice of its input with only ASCII whitespace before and after it, and neither end of it is whitespace. |
| Text.StripLowerCommute | contact_manager.py:21-23 | Stripping and lower-casing commute. So each name part may be stripped before or after lowering. |
| Text.JoinLayout | contact_manager.py:109 | In the newline-joined summary each line sits at the offset after all earlier lines and their separators. A separator follows every line but the last, and the last line ends the text. |
| Text.JoinContains | contact_manager.py:109 | Every line occurs in the joined text. |
| Text.StripIdempotent | contact_manager.py:23 | Stripping an already stripped key changes nothing. |
| Text.ZeroPadRoundTrip | contact_manager.py:105 | A zero-padded `strftime` field reads back as the number it renders. |
| Text.ZeroPadExactWidth | contact_manager.py:105 | A number below 10^k padded to k places is exactly k characters long. |
| Records.Shown | contact_manager.py:17 | An empty cell reads as the non-empty text "None" inside the name f-string. Any other cell reads as itself. |
| Records.MatchingIndices | contact_manager.py:18-28 | The scan appends exactly the positions whose contact passes the test, in strictly increasing store order. |
| Records.PromptForMatch | contact_manager.py:111-119 | One reply is used per candidate asked, up to the first yes. The candidate at that reply is returned. All earlier replies were no. With no yes, every candidate was refused. |
| Records.AllNoAfterFirstNo | contact_manager.py:113-119 | A first no followed by n-1 further no's refuses all n candidates. |
| Records.Ask | contact_manager.py:121-123 | A confirmation reads exactly one reply. It is yes only when that reply is yes. |
| Records.VisitCount | contact_manager.py:175-177 | The loop visits at most every row, and at most `limit` of them. It stops early only because the next row number exceeds the limit. |
| PhoneUtils.KeepDigits | phone_utils.py:5 | Removing every non-digit leaves only digits and never lengthens. |
| PhoneUtils.KeepDigitsConcat | phone_utils.py:5 | Digit extraction distributes over concatenation. |
| PhoneUtils.NormalizePhone | phone_utils.py:3-10 | The result is all digits. It differs from the extracted digits exactly when those are longer than ten and start with "1", and then it drops just that "1". |
| PhoneUtils.FormatForStorage | phone_utils.py:12-16 | A "+"-prefixed input is kept verbatim. Any other input is stored as the country code followed by its canonical digits, both as text and digit for digit. |
| PhoneUtils.NormalizeIdempotentIff | phone_utils.py:3-10 | Normalising twice equals normalising once exactly when the canonical form is not an 11+-digit string starting with "1". |
| PhoneUtils.NormalizeAfterFormatIff | phone_utils.py:12-16 | A stored number normalises back to the input's canonical form exactly when the input had a "+" or has at least ten canonical digits. |
| PhoneExamples.NormalizeSpellings | test_contact_sync.py:18-20 | "(AAA) EEE-LLLL", "+1 (AAA) EEE-LLLL", "1-AAA-EEE-LLLL" and "AAA-EEE-LLLL" all normalise to the ten digits, for every choice of digit groups. |
| PhoneExamples.FormatSpellings | test_contact_sync.py:24-26 | The parenthesised and dashed spellings are stored as "+1" plus the ten digits. The "+1 (...)" spelling is stored verbatim and so differs from that. |
| PhoneExamples.NormalizeShrinksTwice | phone_utils.py:7-8 | A number with two leading "1"s loses one per normalisation, so normalising is not idempotent there. |
| ContactManager.FindMatchingContact | contact_manager.py:15-28 | Position k is returned iff the contact there has the incoming name key or a fuzzy ratio above the threshold. Positions come in store order. |
| ContactManager.ExactPassIsExactMatch | contact_manager.py:133 | With threshold 100, a position is found iff its key equals the incoming key, because no ratio exceeds 100. |
| ContactManager.Candidates | contact_manager.py:133-135 | Every candidate is a position whose contact passes the fuzzy test above 90. Candidates come in store order. |
| ContactManager.ExactMatchesMaskFuzzy | contact_manager.py:133-135 | When one contact carries the incoming key exactly, the candidates are exactly the contacts with that key. |
| ContactManager.FuzzyPassWhenNoExact | contact_manager.py:134-135 | With no exact carrier, the candidates are the fuzzy pass's result. |
| ContactManager.NoCandidatesIff | contact_manager.py:133-135 | There are no candidates iff no contact has the incoming key and none scores above 90. |
| ContactManager.CreatedContactMatchesItsRow | contact_manager.py:17-23 | A contact created from a row with two non-empty, stripped names carries that row's name key. |
| ContactManager.CreatedWithoutLastNameNotExact | contact_manager.py:17-23 | A row with no last name keys as "first none", but its created contact keys as "first". Such a row never exactly matches the contact it created. |
| ContactManager.MergePhone | contact_manager.py:32-47 | The stored list is a prefix of the result. The result grows by one iff the number is non-empty and its canonical form is not stored. The appended entry is the storage form. |
| ContactManager.MergeEmail | contact_manager.py:49-61 | The stored list is a prefix of the result. The result grows by one iff the address is non-empty and its stripped, lower-cased key is not stored. The address is appended as given. |
| ContactManager.Restamp | contact_manager.py:71-73 | A 2024 date moves to 1900 with the same month and day. 29 February 2024 has no 1900 counterpart and fails. Other years are kept. |
| ContactManager.MergeBirthday | contact_manager.py:63-76 | A stored birthday is never replaced. Empty or unparseable text changes nothing. A missing birthday is set to the re-stamped parse, and any new birthday is that. The merge fails iff re-stamping fails, which only a parse of 29 February 2024 can cause. |
| ContactManager.AddOrUpdateContactInfo | contact_manager.py:30-80 | The merge keeps the names. Its phones, emails and birthday are exactly those of the phone, email and birthday merges, so every stored value and a set birthday are kept, and at most one phone and one email are added. It fails exactly when the birthday merge fails, so only on a 29 February 2024 birthday. |
| ContactManager.PhoneMergeIdempotentIff | contact_manager.py:32-47 | Merging a number twice adds nothing the second time iff it was empty or known, or it starts with "+", or it has at least ten canonical digits. |
| ContactManager.EmailMergeIdempotent | contact_manager.py:49-61 | Merging an address twice adds nothing the second time. |
| ContactManager.ApplyTwiceIff | contact_manager.py:30-80 | Re-applying a row's fields to the merged contact changes nothing iff the phone repeat is absorbed. |
| ContactManager.FormatBirthday | contact_manager.py:105 | A 2024 date shows as "MM-DD", and other years as "YYYY-MM-DD". Each field is fixed-width and reads back as the date's own month, day or year. |
| ContactManager.ProposeChanges | contact_manager.py:84-107 | A phone or email line is proposed iff the merge would append it, and shows the value as typed. A birthday line is proposed iff the text parses to a date other than the stored one. Every birthday the merge would set is proposed. |
| ContactManager.SummaryLines | contact_manager.py:84-107 | There are no lines iff nothing is proposed. The phone line comes first, then email, then birthday. |
| ContactManager.GenerateUpdateSummary | contact_manager.py:82-109 | No summary iff nothing is proposed, and then the merge would leave the contact as it is. A summary starts with its first line and contains the "Add phone number: ", "Add email: " and "Update birthday: " line of every proposed change. |
| ContactManager.MergeChangeIsAnnounced | contact_manager.py:154-157 | Whenever the merge would change a contact, a summary exists. |
| ContactManager.SummaryOverannouncesBirthday | contact_manager.py:99-107 | A stored birthday differing from the row's is announced as an update, yet the merge leaves the contact unchanged. |
| ContactManager.SummaryRepeatsStampedBirthday | contact_manager.py:63-107 | After a birthday parsed in 2024 is stored in 1900, the same row proposes the birthday again. |
| ContactManager.FirstCorroborated | contact_manager.py:140-147 | The result is the first candidate position whose stored numbers normalise to the incoming phone. Nothing earlier corroborates, and with no result nothing does. |
| ContactManager.SelectMatch | contact_manager.py:137-152 | Any selection is one of the candidates. Automatic mode asks nothing. |
| ContactManager.SelectionRule | contact_manager.py:137-152 | A corroborated candidate is selected without a question. Otherwise skeptical mode prompts over the candidates, and automatic mode selects iff there is exactly one. |
| ContactManager.PreservesReplace | contact_manager.py:157 | Replacing a contact by a value-keeping, birthday-keeping merge of it preserves the book. |
| ContactManager.PreservesAppend | contact_manager.py:165 | Adding a contact at the end preserves the book. |
| ContactManager.PreservesTransitive | contact_manager.py:175-184 | Preservation composes across rows. |
| ContactManager.UpdateSelected | contact_manager.py:154-159 | With no summary nothing changes. With one, skeptical mode reads one reply and declines iff it is no. Otherwise the contact is updated, and the step fails iff the merge does. An update replaces only the selected contact, by its merge. A decline leaves the book as it was. |
| ContactManager.CreateNew | contact_manager.py:159-166 | Skeptical mode reads one reply and declines iff it is no. Otherwise the contact is created, and the step fails iff the merge does. A created contact carries the row's names and is appended, merged with the row's fields. A declined creation leaves the book as it was. |
| ContactManager.Decide | contact_manager.py:137-166 | For a given candidate list: a selected contact goes through the update gate (no summary, nothing to do; a no declines; otherwise it is updated by its merge), and no selection goes through the creation gate. The book is preserved and grows only by a creation. Any examined contact is a candidate. Automatic mode declines nothing. Only a 29 February 2024 birthday aborts. |
| ContactManager.UpdateOrCreateContact | contact_manager.py:125-166 | The same guarantees as Decide for the row's own candidates: the update and creation gates on the operator's reply and the summary, the resulting book, and abort only on a 29 February 2024 birthday. Automatic mode uses no replies and declines nothing. |
| ContactManager.CorroboratedCandidateWins | contact_manager.py:140-157 | In automatic mode the first corroborating candidate is the one updated or found up to date. |
| ContactManager.AmbiguousMatchCreates | contact_manager.py:149-166 | In automatic mode, two or more uncorroborated candidates lead to a new contact. |
| ContactManager.SoleCandidateSelected | contact_manager.py:151-157 | In automatic mode a sole candidate is the one updated or found up to date. |
| ContactManager.NamesakesAreCandidates | contact_manager.py:133-135 | Two contacts with the incoming key are, in store order, the whole candidate list. |
| ContactManager.PhoneCorroborationBeatsOrder | contact_manager.py:140-152 | Of two namesakes, the one holding the row's phone is chosen even when it comes second. |
| ContactManager.ProcessRow | contact_manager.py:179-184 | A row without a first name is skipped and changes nothing. Any other row's outcome is not a skip. Every outcome has its effect on the book: a creation appends the row's merged new contact, an update replaces that contact by its merge with the row, and any other outcome leaves the book as it was. Automatic mode declines nothing. Only a 29 February 2024 birthday aborts. |
| ContactManager.NamedRowDecided | contact_manager.py:179-184 | A row with a first name is decided by the update and creation gates over the selection among its candidates, exactly as `update_or_create_contact` decides it. |
| ContactManager.NamedRowEffect | contact_manager.py:137-166 | A row's update or creation changes the book by exactly that contact's merge with the row; any other outcome leaves it alone. |
| ContactManager.ProcessRows | contact_manager.py:175-184 | One outcome per visited row, the visited count following the limit rule. An outcome is a skip iff its row has no first name. The book is preserved. |
| ContactManager.BatchEffects | contact_manager.py:175-184 | A finished row loop grows the book by exactly the number of contacts it reports created. In automatic mode it reports no decline. A loop that neither creates nor updates leaves the book as it was. |
| ContactManager.BatchCompletes | contact_manager.py:175-184 | The row loop aborts only on a row whose birthday parses to 29 February 2024; without one it always completes. |
| ContactManager.ProcessContacts | contact_manager.py:168-187 | The batch visits as many rows as the limit allows, skips exactly the nameless ones, and preserves the book. The book grows by exactly the contacts reported created, automatic mode reports no decline, and a batch without a creation or update leaves the book as it was. A sheet with no 29 February 2024 birthday never aborts. |
| ContactExamples.SoleNamesakeFound | test_contact_sync.py:28-34 | A book holding only the row's person yields exactly that person, for any stripped names. |
| ContactExamples.MergeIntoBareContact | test_contact_sync.py:36-43 | For a birthday parsed in 2024, the bare contact gets "+1" plus the digits and the address. Its birthday moves to 1900 with month and day kept, so it is not the 2024 date the test expects. |
| ContactExamples.YearlessParseStoredAsParsed | contact_manager.py:63-76 | A birthday parsed with year 1900, as the year-less formats give, is stored on a bare contact exactly as parsed. |
| ContactExamples.SummaryForBareContact | test_contact_sync.py:45-52 | The summary for a bare contact exists and is exactly the phone line with the number as typed, the email line and the birthday line with the formatted date, in that order; each line occurs in it. |
| ContactExamples.PlaceholderBirthdayShown | test_contact_sync.py:52 | 17 September 2024 shows as "09-17", the form the test expects. |
| ContactExamples.YearlessParseShown | contact_manager.py:105 | 17 September 1900, what "Sep-17" parses to, shows as "1900-09-17". |
| Updater.FindMatchingContact | updater.py:26-36 | Position k is returned iff the contact's last name equals the row's non-empty last name and, when a first name is given, its first name is equal too. Positions come in store order. |
| Updater.FirstNameNarrows | updater.py:33 | Every match that uses the first name is also a last-name-only match. |
| Updater.NoLastNameAlwaysCreates | updater.py:26-63 | A row with no last name matches nobody, so automatic mode creates a new contact for it each time. |
| Updater.AddIfAbsent | updater.py:112-138 | The stored list is a prefix of the result, and the value is present afterwards. The list grows by one iff that exact string was absent. |
| Updater.AddIfAbsentIdempotent | updater.py:112-138 | Adding the same string twice changes nothing the second time. |
| Updater.UpdateBirthday | updater.py:140-146 | A parseable date replaces any stored birthday. Unparseable text keeps it. |
| Updater.ApplyFields | updater.py:81-107 | Only non-empty fields apply. Names and stored values are kept. A given phone or email is added unless already present verbatim. A parsed birthday overwrites; unparseable text keeps the stored one. |
| Updater.ApplyFieldsIdempotent | updater.py:79-88 | Applying the same fields twice gives the same contact as applying them once. |
| Updater.UpdateContact | updater.py:79-90 | Names and values are kept. The phones and emails are the stored lists with the row's non-empty cell added unless already present verbatim. A parsed birthday overwrites the stored one, and otherwise the stored one stays. |
| Updater.CreateContact | updater.py:92-110 | The new contact has the row's names and only its non-empty phone and email, verbatim. It has the parsed birthday when one is given. |
| Updater.LegacySelect | updater.py:43-49 | Skeptical mode always prompts over the matches on both names, even when there are none. Automatic mode matches on the last name alone: it takes a sole match without asking and prompts over several. Any selection is one of the matches. |
| Updater.UpdateSelected | updater.py:51-57 | Skeptical mode reads one reply and updates iff it is yes; a no leaves the book alone. Automatic mode updates without asking. An update replaces only the selected contact. |
| Updater.CreateNew | updater.py:58-63 | Skeptical mode reads one reply and creates iff it is yes; a no leaves the book alone. Automatic mode creates without asking. The created contact is appended. |
| Updater.UpdateOrCreateContact | updater.py:38-63 | Values are kept. A selected contact is updated or declined and no selection creates or declines. In skeptical mode, a change happens iff the reply after the selection is yes, and exactly that one reply is read. An update replaces only the matching contact, by its update. A creation appends exactly the created contact. A decline changes nothing. Automatic mode always updates or creates, and the replies left are exactly those the selection's prompt over several matches left. |
| Updater.AutomaticUnambiguous | updater.py:43-63 | In automatic mode, with no match the row creates and with one match it updates that contact, asking nothing. |
| Updater.ProcessRow | updater.py:161 | No row is ever skipped, whatever its first name. Each row is decided by `update_or_create_contact`: it updates or declines exactly the selected contact, and otherwise creates or declines. A creation appends the row's contact, an update replaces that contact by its update from the row, and a decline leaves the book alone. Automatic mode always writes. |
| Updater.ProcessRows | updater.py:157-161 | One outcome per visited row under the limit rule. None is a skip. Values are kept. |
| Updater.BatchEffects | updater.py:157-161 | A finished legacy loop grows the book by exactly the number of contacts it reports created. In automatic mode every row updates or creates. A loop that neither creates nor updates leaves the book as it was. |
| Updater.ProcessContacts | updater.py:148-165 | The legacy batch visits as many rows as the limit allows, skips none, and keeps every stored value. The book grows by exactly the contacts reported created, automatic mode writes on every row, and a batch without a creation or update leaves the book as it was. |
| Engines.LegacyAbsorbedPhoneIsAbsorbed | updater.py:112-124 | A number the legacy engine absorbs is absorbed by the current engine as well. |
| Engines.LegacyAbsorbedEmailIsAbsorbed | updater.py:126-138 | An address the legacy engine absorbs is absorbed by the current engine as well. |
| Engines.SpellingVariantSplitsEngines | updater.py:118-119 | A respelling of a stored number is absorbed by the current engine and appended by the legacy engine. |
| Engines.DashedAfterParenthesised | updater.py:112-124 | With "(AAA) EEE-LLLL" stored, the row "AAA-EEE-LLLL" leaves the current engine's list unchanged. The legacy engine ends up with both spellings. |
| Engines.StoredFormSplitsEngines | updater.py:118-119 | A number the current engine stored as "+1..." is absorbed when its row comes again, but the legacy engine appends the row's spelling. |
| Engines.BirthdaySplitsEngines | updater.py:140-146 | A different parseable birthday overwrites the stored one in the legacy engine. The current engine keeps the stored one. |
| Engines.LegacyMatchIsExactCandidate | updater.py:26-36 | For two present, stripped names, a contact carrying both is matched by the legacy engine in skeptical mode and is an exact candidate of the current engine. |
| Engines.JoinedNameKey | contact_manager.py:17 | For two non-empty stripped names the incoming key is the lowered first name, a space, and the lowered last name. |
| Engines.CaseOnlyDifferenceSplitsEngines | updater.py:33 | A stored last name that differs from the row's only in letter case is never matched by the legacy engine. The current engine takes it as an exact candidate. |

## Left out

- The address book itself (`ABAddressBook`, `ABPerson`, multi-value objects, labels, `save()`) is a sequence of contact values. Phone and email labels are not modelled.
- Spreadsheet reading (`openpyxl`, the header row, `values_only`) is not modelled. The rows are a given sequence of seven text cells. Rows with fewer than seven cells, numeric cells and `str()` conversion of them are left out.
- Rows wider than seven cells are not modelled. The legacy engine unpacks exactly seven cells and raises `ValueError` on a wider row (updater.py:40, updater.py:94), while the current engine keeps the first seven (contact_manager.py:127).
- Birthday cells that are already dates are not modelled: every cell is text. birthday_parser.py:6-7 passes a `datetime` through unchanged, while the legacy engine's own parser hands it to `strptime` (updater.py:16), which raises a `TypeError` nothing catches.
- `input()`, `print()` and command-line parsing (`sys.argv`, `--limit=`, `--skeptical`) are not modelled. Replies are a boolean sequence, and end-of-input reads as "no" rather than raising `EOFError`.
- `fuzz.ratio` and `parse_birthday` (birthday_parser.py and updater.py:7-24) are opaque functions. The model never relies on their values beyond the ratio's 0..100 range.
- Birthdays are (year, month, day) triples. Time of day, `datetime.fromtimestamp` time zones and the `NSDate` round-trip of the stored value are not modelled.
- Text handling is ASCII only. `\D`, `str.strip` and `str.lower` act on non-ASCII characters in Python (other Unicode digits and spaces, case mappings) and the model does not.
- Years outside 1..9999 are not modelled, since Python dates have none. Within that range ContactManager.FormatBirthday renders `%Y` zero-padded to four digits, as the macOS C library does, and states its round-trip for every such year.
- The literal 2024 in contact_manager.py:72,105 is the model's UnknownYear constant. The parser's year-less formats (birthday_parser.py:9-13) leave the year at 1900, so a text such as "Sep-17" parses to 1900-09-17, is never re-stamped, and is shown as "1900-09-17". Any parse that lands in 2024 meets the literal: a format with an explicit year (`%m/%d/%Y`, `%m/%d/%y`, `%d-%m-%Y`, `%d/%m/%Y` and `%Y-%m-%d` at birthday_parser.py:9), so that "03/18/2024" parses to 18 March 2024 and is re-stamped to 1900, or the fallback parser (birthday_parser.py:18) when it fills in the current year 2024. The parser is an oracle here, so the model does not fix which of these a given text takes. ContactExamples.MergeIntoBareContact and ContactExamples.PlaceholderBirthdayShown assume a parse in 2024. ContactExamples.YearlessParseStoredAsParsed and ContactExamples.YearlessParseShown cover the 1900 parse.
- main.py and utils.py are thin callers and are not part of this model.
- The repository's tests disagree with the code at several points, and the model follows the code:
  - test_contact_sync.py:25 expects "+1 (540) 226-2697" to be stored as "+15402262697", but a "+"-prefixed number is kept verbatim. See PhoneExamples.FormatSpellings.
  - test_contact_sync.py:12 and :43 expect "Sep-17" to mean 17 September 2024. The year-less format gives 1900, which the merge stores as is (ContactExamples.YearlessParseStoredAsParsed). A 2024 parse would be re-stamped to 1900 (ContactExamples.MergeIntoBareContact). Either way the stored year is 1900, not 2024.
  - test_contact_sync.py:52 expects "Update birthday: 09-17". The 1900 parse is shown as "1900-09-17" (ContactExamples.YearlessParseShown). Only a 2024 parse shows as "09-17" (ContactExamples.PlaceholderBirthdayShown).

=== FILE: contact_examples.dfy ===
/** The scenarios of the repository's tests, stated for every choice of
    names, digits and dates, against the current engine. */
module ContactExamples {
  import opened Text
  import opened Records
  import opened PhoneUtils
  import opened PhoneExamples
  import opened ContactManager

  /** Lines 28-34 of the tests: in a book holding only the person a row
      names, the matcher finds exactly that person. */
  lemma SoleNamesakeFound(first: string, last: string, o: Oracle)
    requires first != "" && last != ""
    requires Strip(first) == first && Strip(last) == last
    ensures FindMatchingContact([NewContact(first, last)], first, last, FuzzyThreshold, o) == [0]
  {
    var store := [NewContact(first, last)];
    CreatedContactMatchesItsRow(first, last);
    var r := FindMatchingContact(store, first, last, FuzzyThreshold, o);
    assert 0 in r;
    assert |r| == 1 by {
      IncreasingAtLeastIndex(r, |r| - 1);
    }
  }

  /** Lines 36-43 of the tests, for a birthday the parser returned in 2024
      (which it does when the text names that year, or when the fallback
      parser fills in the current year and the program runs in 2024):
      merging a dashed number, an address and that birthday into a bare
      contact stores "+1" and the ten digits, the address as given, and the
      birthday moved to the placeholder year 1900. */
  lemma MergeIntoBareContact(first: string, last: string, area: string, exchange: string, line: string,
                             email: string, birthday: string, o: Oracle)
    requires Groups(area, exchange, line) && email != "" && birthday != ""
    requires o.parseBirthday(birthday).Some? && o.parseBirthday(birthday).value.year == UnknownYear
    requires !(o.parseBirthday(birthday).value.month == 2 && o.parseBirthday(birthday).value.day == 29)
    ensures var r := AddOrUpdateContactInfo(NewContact(first, last), Dashed(area, exchange, line), email, birthday, o);
      && r.Ok?
      && r.value.phones == ["+1" + (area + exchange + line)]
      && r.value.emails == [email]
      && r.value.birthday.Some?
      && r.value.birthday.value.year == PlaceholderYear != UnknownYear
      && r.value.birthday.value.month == o.parseBirthday(birthday).value.month
      && r.value.birthday.value.day == o.parseBirthday(birthday).value.day
  {
    FormatSpellings(area, exchange, line);
    assert Dashed(area, exchange, line) != "";
  }

  /** A year-less text such as "Sep-17" matches one of the parser's first
      formats, which leave the year at 1900. Such a date is not re-stamped:
      a bare contact stores it exactly as parsed, so the 2024 date that
      lines 36-43 of the tests expect is not what the source stores. */
  lemma YearlessParseStoredAsParsed(first: string, last: string, birthday: string, o: Oracle)
    requires birthday != ""
    requires o.parseBirthday(birthday).Some? && o.parseBirthday(birthday).value.year == PlaceholderYear
    ensures AddOrUpdateContactInfo(NewContact(first, last), "", "", birthday, o) == Ok(
      NewContact(first, last).(birthday := o.parseBirthday(birthday)))
  {
  }

  /** What the summary proposes for a bare contact: every field of the row. */
  lemma BareContactProposal(first: string, last: string, phone: string, email: string, birthday: string, o: Oracle)
    requires phone != "" && email != "" && birthday != ""
    requires o.parseBirthday(birthday).Some?
    ensures ProposeChanges(NewContact(first, last), phone, email, birthday, o)
      == Proposal(Some(phone), Some(email), Some(FormatBirthday(o.parseBirthday(birthday).value)))
  {
  }

  /** Lines 45-52 of the tests: for a bare contact the summary is produced
      and holds the line for the number as typed, the line for the address,
      and the line for the birthday as shown, in that order and nothing
      else. */
  lemma SummaryForBareContact(first: string, last: string, phone: string, email: string, birthday: string, o: Oracle)
    requires phone != "" && email != "" && birthday != ""
    requires o.parseBirthday(birthday).Some?
    ensures var s := GenerateUpdateSummary(NewContact(first, last), phone, email, birthday, o);
      && s.Some?
      && Occurs("Add phone number: " + phone, s.value)
      && Occurs("Add email: " + email, s.value)
      && Occurs("Update birthday: " + FormatBirthday(o.parseBirthday(birthday).value), s.value)
      && s.value == ("Add phone number: " + phone) + "\n" + ("Add email: " + email) + "\n"
                    + ("Update birthday: " + FormatBirthday(o.parseBirthday(birthday).value))
  {
    var shown := FormatBirthday(o.parseBirthday(birthday).value);
    BareContactProposal(first, last, phone, email, birthday, o);
    var a, b, c := "Add phone number: " + phone, "Add email: " + email, "Update birthday: " + shown;
    SummaryOfAll(phone, email, shown);
    JoinThree(a, b, c, "\n");
  }

  /** With all three changes proposed the summary has all three lines. */
  lemma SummaryOfAll(phone: string, email: string, shown: string)
    ensures SummaryLines(Proposal(Some(phone), Some(email), Some(shown)))
      == ["Add phone number: " + phone, "Add email: " + email, "Update birthday: " + shown]
  {
  }

  /** Line 52 of the tests expects the birthday shown as "09-17": that is
      what a date in 2024 shows, the year the summary leaves out. */
  lemma PlaceholderBirthdayShown(d: Date)
    requires d == Date(UnknownYear, 9, 17)
    ensures FormatBirthday(d) == "09-17"
  {
    var mm := ZeroPad(9, 2);
    var dd := ZeroPad(17, 2);
    assert Decimal(9) == "9";
    assert mm == "09";
    assert Decimal(17) == Decimal(1) + [DigitChar(7)];
    assert dd == "17";
  }

  /** The date "Sep-17" parses to, 17 September 1900, is shown with its
      year, so the source's summary line reads "Update birthday: 1900-09-17". */
  lemma YearlessParseShown(d: Date)
    requires d == Date(PlaceholderYear, 9, 17)
    ensures FormatBirthday(d) == "1900-09-17"
  {
    var yyyy := ZeroPad(1900, 4);
    var mm := ZeroPad(9, 2);
    var dd := ZeroPad(17, 2);
    assert Decimal(9) == "9";
    assert mm == "09";
    assert Decimal(17) == Decimal(1) + [DigitChar(7)];
    assert dd == "17";
    assert Decimal(1900) == Decimal(190) + [DigitChar(0)];
    assert Decimal(190) == Decimal(19) + [DigitChar(0)];
    assert Decimal(19) == Decimal(1) + [DigitChar(9)];
    assert yyyy == "1900";
  }
}

=== FILE: contact_manager.dfy ===
/** The current engine (contact_manager.py): two-pass name matching refined
    by phone corroboration, an append-only de-duplicating merge with a
    set-once birthday, the change summary that gates an update, and the
    batch driver over spreadsheet rows. */
module ContactManager {
  import opened Text
  import opened Records
  import opened PhoneUtils

  // ---------------------------------------------------------------------
  // Candidate matching (find_matching_contact)

  /** The incoming name key: first and last name joined by a space, then
      stripped and lower-cased; an empty cell reads as "None". */
  function IncomingName(first: string, last: string): string {
    Lower(Strip(Shown(first) + " " + Shown(last)))
  }

  /** An existing contact's name key: each part stripped and lower-cased,
      the two joined by a space, and the whole stripped again. */
  function ExistingName(c: Contact): string {
    Strip(Lower(Strip(c.first)) + " " + Lower(Strip(c.last)))
  }

  /** The test on line 25 of find_matching_contact. */
  predicate Qualifies(c: Contact, name: string, threshold: int, o: Oracle) {
    name == ExistingName(c) || o.ratio(name, ExistingName(c)) > threshold
  }

  /** `find_matching_contact`: the positions, in store order, of the contacts
      whose name key equals the incoming one or whose fuzzy ratio to it
      exceeds `threshold`. */
  function FindMatchingContact(store: Store, first: string, last: string, threshold: int, o: Oracle)
    : (r: seq<nat>)
    ensures Increasing(r)
    ensures forall j :: 0 <= j < |r| ==> r[j] < |store|
    ensures forall k: nat :: k in r <==> k < |store| && Qualifies(store[k], IncomingName(first, last), threshold, o)
  {
    var name := IncomingName(first, last);
    MatchingIndices(store, c => Qualifies(c, name, threshold, o), |store|)
  }

  const ExactThreshold: int := 100
  const FuzzyThreshold: int := 90

  /** Since a ratio never exceeds 100, the first pass finds exactly the
      contacts whose name key is the incoming one. */
  lemma ExactPassIsExactMatch(store: Store, first: string, last: string, o: Oracle, k: nat)
    ensures k in FindMatchingContact(store, first, last, ExactThreshold, o)
        <==> k < |store| && ExistingName(store[k]) == IncomingName(first, last)
  {
    if k < |store| {
      ExactQualifies(store[k], IncomingName(first, last), o);
    }
  }

  /** No ratio exceeds 100, so at that threshold only an equal key qualifies. */
  lemma ExactQualifies(c: Contact, name: string, o: Oracle)
    ensures Qualifies(c, name, ExactThreshold, o) <==> name == ExistingName(c)
  {
    assert o.ratio(name, ExistingName(c)) <= ExactThreshold;
  }

  /** Lines 133-135: the exact pass, and the fuzzy pass only if that found
      nothing. */
  function Candidates(store: Store, first: string, last: string, o: Oracle): (r: seq<nat>)
    ensures Increasing(r)
    ensures forall j :: 0 <= j < |r| ==> r[j] < |store|
    ensures forall k: nat :: k in r ==> k < |store| && Qualifies(store[k], IncomingName(first, last), FuzzyThreshold, o)
  {
    var exact := FindMatchingContact(store, first, last, ExactThreshold, o);
    if exact != [] then exact else FindMatchingContact(store, first, last, FuzzyThreshold, o)
  }

  /** When some contact carries the incoming name exactly, the candidates
      are exactly those contacts: a fuzzy near-miss never joins them. */
  lemma ExactMatchesMaskFuzzy(store: Store, first: string, last: string, o: Oracle, e: nat)
    requires e < |store| && ExistingName(store[e]) == IncomingName(first, last)
    ensures forall k: nat :: (k in Candidates(store, first, last, o)
        <==> k < |store| && ExistingName(store[k]) == IncomingName(first, last))
  {
    ExactPassIsExactMatch(store, first, last, o, e);
    forall k: nat
      ensures k in Candidates(store, first, last, o)
          <==> k < |store| && ExistingName(store[k]) == IncomingName(first, last)
    {
      ExactPassIsExactMatch(store, first, last, o, k);
    }
  }

  /** With no exact carrier, the candidates are the fuzzy matches above 90. */
  lemma FuzzyPassWhenNoExact(store: Store, first: string, last: string, o: Oracle)
    requires forall k :: 0 <= k < |store| ==> ExistingName(store[k]) != IncomingName(first, last)
    ensures Candidates(store, first, last, o) == FindMatchingContact(store, first, last, FuzzyThreshold, o)
  {
    var exact := FindMatchingContact(store, first, last, ExactThreshold, o);
    if |exact| > 0 {
      ExactPassIsExactMatch(store, first, last, o, exact[0]);
    }
  }

  /** The matcher finds nothing exactly when no contact's key equals the
      incoming one and none scores above 90. */
  lemma NoCandidatesIff(store: Store, first: string, last: string, o: Oracle)
    ensures Candidates(store, first, last, o) == []
        <==> forall k :: 0 <= k < |store| ==> !Qualifies(store[k], IncomingName(first, last), FuzzyThreshold, o)
  {
    var exact := FindMatchingContact(store, first, last, ExactThreshold, o);
    var fuzzy := FindMatchingContact(store, first, last, FuzzyThreshold, o);
    assert |exact| == 0 || exact[0] in exact;
    assert |fuzzy| == 0 || fuzzy[0] in fuzzy;
    if |exact| > 0 {
      ExactPassIsExactMatch(store, first, last, o, exact[0]);
      assert fuzzy[0] in fuzzy;
    }
  }

  /** A contact created from a row carries that row's name key, provided
      both names are present and have no surrounding whitespace. */
  lemma CreatedContactMatchesItsRow(first: string, last: string)
    requires first != "" && last != ""
    requires Strip(first) == first && Strip(last) == last
    ensures ExistingName(NewContact(first, last)) == IncomingName(first, last)
  {
    StripLowerCommute(first + " " + last);
    LowerConcat(first, " ");
    LowerConcat(first + " ", last);
    assert Lower(" ") == " ";
  }

  /** A row with no last name is keyed as "<first> none", but the contact
      created from it has the empty last name and is keyed as "<first>":
      the exact pass never finds that contact again. */
  lemma CreatedWithoutLastNameNotExact(first: string)
    requires first != "" && Strip(first) == first
    ensures ExistingName(NewContact(first, "")) != IncomingName(first, "")
  {
    var incoming := Shown(first) + " " + Shown("");
    assert incoming == first + " None";
    assert incoming[0] == first[0] && !IsSpace(incoming[0]);
    StripOfStripped(incoming);
    assert |IncomingName(first, "")| == |first| + 5;
    StripOfStripped("");
    var joined := Lower(first) + " " + Lower("");
    assert joined == Lower(first) + " ";
    assert |Strip(joined)| <= |first| + 1;
  }

  // ---------------------------------------------------------------------
  // Merge (add_or_update_contact_info and its three inner helpers)

  /** Every stored number in canonical form, in order. */
  function NormalizedPhones(phones: seq<string>): seq<string> {
    seq(|phones|, i requires 0 <= i < |phones| => NormalizePhone(phones[i]))
  }

  /** The email comparison key: the address stripped and lower-cased. */
  function EmailKey(email: string): string {
    Lower(Strip(email))
  }

  function EmailKeys(emails: seq<string>): seq<string> {
    seq(|emails|, i requires 0 <= i < |emails| => EmailKey(emails[i]))
  }

  /** A non-empty number whose canonical form no stored number has. */
  predicate PhoneIsNew(phones: seq<string>, newPhone: string) {
    newPhone != "" && NormalizePhone(newPhone) !in NormalizedPhones(phones)
  }

  /** A non-empty address whose key no stored address has. */
  predicate EmailIsNew(emails: seq<string>, newEmail: string) {
    newEmail != "" && EmailKey(newEmail) !in EmailKeys(emails)
  }

  /** `add_or_update_phone_number`: a non-empty number not yet present in
      canonical form is appended, formatted for storage. */
  function MergePhone(phones: seq<string>, newPhone: string): (r: seq<string>)
    ensures IsPrefix(phones, r) && |r| <= |phones| + 1
    ensures |r| == |phones| + 1 <==> PhoneIsNew(phones, newPhone)
    ensures |r| == |phones| + 1 ==> r[|phones|] == FormatForStorage(newPhone, DefaultCountryCode)
  {
    if PhoneIsNew(phones, newPhone) then
      phones + [FormatForStorage(newPhone, DefaultCountryCode)]
    else
      phones
  }

  /** `add_or_update_email`: a non-empty address whose key is not yet
      present is appended as given, not in key form. */
  function MergeEmail(emails: seq<string>, newEmail: string): (r: seq<string>)
    ensures IsPrefix(emails, r) && |r| <= |emails| + 1
    ensures |r| == |emails| + 1 <==> EmailIsNew(emails, newEmail)
    ensures |r| == |emails| + 1 ==> r[|emails|] == newEmail
  {
    if EmailIsNew(emails, newEmail) then emails + [newEmail] else emails
  }

  /** The year the merge reads as "no year given": a literal in the
      source, not the year the program runs in. */
  const UnknownYear: nat := 2024
  /** The year stored in its place. */
  const PlaceholderYear: nat := 1900

  /** A date in the unknown year is moved to the placeholder year with the
      same month and day; any other date is kept. Moving 29 February fails,
      since 1900 is not a leap year. */
  function Restamp(d: Date): (r: Option<Date>)
    ensures r.None? <==> d.year == UnknownYear && d.month == 2 && d.day == 29
    ensures r.Some? ==> r.value.month == d.month && r.value.day == d.day
    ensures r.Some? ==> r.value.year == if d.year == UnknownYear then PlaceholderYear else d.year
  {
    if d.year != UnknownYear then Some(d)
    else if d.month == 2 && d.day == 29 then None
    else Some(Date(PlaceholderYear, d.month, d.day))
  }

  /** A birthday cell that parses to 29 February of the unknown year: the
      one date re-stamping cannot move to the placeholder year. */
  predicate LeapDayCell(birthday: string, o: Oracle) {
    birthday != "" && o.parseBirthday(birthday) == Some(Date(UnknownYear, 2, 29))
  }

  /** `update_birthday`: sets the birthday only when there is none yet and
      the incoming text parses; never overwrites. */
  function MergeBirthday(existing: Option<Date>, newBirthday: string, o: Oracle): (r: Result<Option<Date>>)
    ensures existing.Some? ==> r == Ok(existing)
    ensures newBirthday == "" || o.parseBirthday(newBirthday).None? ==> r == Ok(existing)
    ensures r.Ok? && r.value != existing ==>
      && existing.None? && newBirthday != ""
      && o.parseBirthday(newBirthday).Some?
      && Some(r.value.value) == Restamp(o.parseBirthday(newBirthday).value)
    ensures r.Abort? <==>
      && existing.None? && newBirthday != ""
      && o.parseBirthday(newBirthday).Some?
      && Restamp(o.parseBirthday(newBirthday).value).None?
    ensures existing.None? && newBirthday != "" && o.parseBirthday(newBirthday).Some?
            && Restamp(o.parseBirthday(newBirthday).value).Some? ==>
      r == Ok(Restamp(o.parseBirthday(newBirthday).value))
    ensures r.Abort? ==> existing.None? && LeapDayCell(newBirthday, o)
  {
    if existing.Some? || newBirthday == "" then Ok(existing)
    else
      match o.parseBirthday(newBirthday)
      case None => Ok(existing)
      case Some(d) =>
        match Restamp(d)
        case None => Abort(InvalidPlaceholderDate(d))
        case Some(stamped) => Ok(Some(stamped))
  }

  /** `add_or_update_contact_info`: phone, then email, then birthday. A
      failed re-stamp propagates as an exception. */
  function AddOrUpdateContactInfo(c: Contact, newPhone: string, newEmail: string, newBirthday: string, o: Oracle)
    : (r: Result<Contact>)
    ensures r.Ok? ==> KeepsValues(c, r.value)
    ensures r.Ok? && c.birthday.Some? ==> r.value.birthday == c.birthday
    ensures r.Ok? ==> |r.value.phones| <= |c.phones| + 1 && |r.value.emails| <= |c.emails| + 1
    ensures r.Abort? <==> MergeBirthday(c.birthday, newBirthday, o).Abort?
    ensures r.Abort? ==> LeapDayCell(newBirthday, o)
    ensures r.Ok? ==>
      && r.value.first == c.first && r.value.last == c.last
      && r.value.phones == MergePhone(c.phones, newPhone)
      && r.value.emails == MergeEmail(c.emails, newEmail)
      && MergeBirthday(c.birthday, newBirthday, o) == Ok(r.value.birthday)
  {
    var phones := MergePhone(c.phones, newPhone);
    var emails := MergeEmail(c.emails, newEmail);
    match MergeBirthday(c.birthday, newBirthday, o)
    case Abort(f) => Abort(f)
    case Ok(birthday) => Ok(c.(phones := phones, emails := emails, birthday := birthday))
  }

  /** When a second merge of the same number adds nothing: the number was
      empty or already known, or its stored form normalises back to it
      (it starts with "+" or has at least ten canonical digits). */
  predicate RepeatAbsorbed(phones: seq<string>, newPhone: string) {
    || newPhone == ""
    || NormalizePhone(newPhone) in NormalizedPhones(phones)
    || StartsWith(newPhone, '+')
    || |NormalizePhone(newPhone)| >= 10
  }

  /** Merging the same number twice adds nothing the second time exactly
      when the repeat is absorbed; a short unprefixed number is appended
      again on every pass. */
  lemma {:induction false} PhoneMergeIdempotentIff(phones: seq<string>, newPhone: string)
    ensures MergePhone(MergePhone(phones, newPhone), newPhone) == MergePhone(phones, newPhone)
        <==> RepeatAbsorbed(phones, newPhone)
  {
    var once := MergePhone(phones, newPhone);
    if PhoneIsNew(phones, newPhone) {
      var stored := FormatForStorage(newPhone, DefaultCountryCode);
      NormalizedPhonesAppend(phones, stored);
      NormalizeAfterFormatIff(newPhone);
      assert PhoneIsNew(once, newPhone) <==> !RepeatAbsorbed(phones, newPhone);
      var twice := MergePhone(once, newPhone);
      if |twice| == |once| + 1 {
        assert twice != once;
      }
    }
  }

  lemma NormalizedPhonesAppend(phones: seq<string>, stored: string)
    ensures NormalizedPhones(phones + [stored]) == NormalizedPhones(phones) + [NormalizePhone(stored)]
  {
  }

  /** A repeated email is always absorbed: its key is the key of the
      address just appended. */
  lemma EmailMergeIdempotent(emails: seq<string>, newEmail: string)
    ensures MergeEmail(MergeEmail(emails, newEmail), newEmail) == MergeEmail(emails, newEmail)
  {
    var once := MergeEmail(emails, newEmail);
    if |once| == |emails| + 1 {
      assert EmailKeys(once) == EmailKeys(emails) + [EmailKey(newEmail)];
    }
  }

  /** Applying the same row's fields twice changes nothing the second time
      exactly when the phone merge absorbs the repeat. */
  lemma {:induction false} ApplyTwiceIff(c: Contact, newPhone: string, newEmail: string, newBirthday: string, o: Oracle)
    requires AddOrUpdateContactInfo(c, newPhone, newEmail, newBirthday, o).Ok?
    ensures var once := AddOrUpdateContactInfo(c, newPhone, newEmail, newBirthday, o).value;
      AddOrUpdateContactInfo(once, newPhone, newEmail, newBirthday, o) == Ok(once) <==> RepeatAbsorbed(c.phones, newPhone)
  {
    var once := AddOrUpdateContactInfo(c, newPhone, newEmail, newBirthday, o).value;
    PhoneMergeIdempotentIff(c.phones, newPhone);
    EmailMergeIdempotent(c.emails, newEmail);
    assert MergeBirthday(once.birthday, newBirthday, o) == Ok(once.birthday);
  }

  // ---------------------------------------------------------------------
  // Change summary (generate_update_summary)

  /** The changes `generate_update_summary` proposes, at most one of each
      kind: the number as typed, the address as typed, and the birthday as
      shown. */
  datatype Proposal = Proposal(phone: Option<string>, email: Option<string>, birthday: Option<string>)

  predicate IsEmpty(p: Proposal) {
    p.phone.None? && p.email.None? && p.birthday.None?
  }

  /** `strftime('%m-%d')` for the unknown year, else `strftime('%Y-%m-%d')`.
      Every field reads back as the date's own number. */
  function FormatBirthday(d: Date): (r: string)
    ensures d.month < 100 && d.day < 100 && d.year == UnknownYear ==>
      && |r| == 5 && r[2] == '-'
      && AllDigits(r[..2]) && ValueOf(r[..2]) == d.month
      && AllDigits(r[3..]) && ValueOf(r[3..]) == d.day
    ensures 0 < d.year < 10000 && d.month < 100 && d.day < 100 && d.year != UnknownYear ==>
      && |r| == 10 && r[4] == '-' && r[7] == '-'
      && AllDigits(r[..4]) && ValueOf(r[..4]) == d.year
      && AllDigits(r[5..7]) && ValueOf(r[5..7]) == d.month
      && AllDigits(r[8..]) && ValueOf(r[8..]) == d.day
  {
    var mm := ZeroPad(d.month, 2);
    var dd := ZeroPad(d.day, 2);
    if d.year == UnknownYear then
      if d.month < 100 && d.day < 100 then
        ZeroPadExactWidth(d.month, 2);
        ZeroPadExactWidth(d.day, 2);
        ZeroPadRoundTrip(d.month, 2);
        ZeroPadRoundTrip(d.day, 2);
        var r := mm + "-" + dd;
        assert r[..2] == mm && r[3..] == dd;
        r
      else
        mm + "-" + dd
    else
      var yyyy := ZeroPad(d.year, 4);
      if d.year < 10000 && d.month < 100 && d.day < 100 then
        assert Pow10(4) == 10000 && Pow10(2) == 100;
        ZeroPadExactWidth(d.year, 4);
        ZeroPadExactWidth(d.month, 2);
        ZeroPadExactWidth(d.day, 2);
        ZeroPadRoundTrip(d.year, 4);
        ZeroPadRoundTrip(d.month, 2);
        ZeroPadRoundTrip(d.day, 2);
        var r := yyyy + "-" + mm + "-" + dd;
        assert r[..4] == yyyy && r[5..7] == mm && r[8..] == dd;
        r
      else
        yyyy + "-" + mm + "-" + dd
  }

  /** Lines 84-107: what the summary proposes. The phone and email
      changes are proposed exactly when the merge would append them; the
      phone shows the number as typed, not as it would be stored. The
      birthday is proposed whenever the parsed date differs from the stored
      one, which covers every birthday the merge sets and more. */
  function ProposeChanges(c: Contact, newPhone: string, newEmail: string, newBirthday: string, o: Oracle)
    : (r: Proposal)
    ensures r.phone.Some? <==> |MergePhone(c.phones, newPhone)| > |c.phones|
    ensures r.phone.Some? ==> r.phone.value == newPhone
    ensures r.email.Some? <==> |MergeEmail(c.emails, newEmail)| > |c.emails|
    ensures r.email.Some? ==> r.email.value == newEmail
    ensures r.birthday.Some? <==>
      newBirthday != "" && o.parseBirthday(newBirthday).Some? && c.birthday != o.parseBirthday(newBirthday)
    ensures r.birthday.Some? ==>
      o.parseBirthday(newBirthday).Some? && r.birthday.value == FormatBirthday(o.parseBirthday(newBirthday).value)
    ensures MergeBirthday(c.birthday, newBirthday, o) != Ok(c.birthday) ==> r.birthday.Some?
  {
    var birthday :=
      if newBirthday == "" then None
      else
        (match o.parseBirthday(newBirthday)
         case None => None
         case Some(d) => if c.birthday != Some(d) then Some(FormatBirthday(d)) else None);
    Proposal(
      if PhoneIsNew(c.phones, newPhone) then Some(newPhone) else None,
      if EmailIsNew(c.emails, newEmail) then Some(newEmail) else None,
      birthday)
  }

  /** A captioned summary line, if there is a value to show. */
  function Labelled(caption: string, value: Option<string>): (r: seq<string>)
    ensures |r| == if value.Some? then 1 else 0
    ensures value.Some? ==> r[0] == caption + value.value
  {
    if value.Some? then [caption + value.value] else []
  }

  /** The summary's lines: phone first, then email, then birthday, each
      only when proposed. */
  function SummaryLines(p: Proposal): (r: seq<string>)
    ensures |r| == |Labelled("", p.phone)| + |Labelled("", p.email)| + |Labelled("", p.birthday)|
    ensures r == [] <==> IsEmpty(p)
    ensures p.phone.Some? ==> r[0] == "Add phone number: " + p.phone.value
    ensures p.email.Some? ==> r[if p.phone.Some? then 1 else 0] == "Add email: " + p.email.value
    ensures p.birthday.Some? ==> r[|r| - 1] == "Update birthday: " + p.birthday.value
  {
    Labelled("Add phone number: ", p.phone) + Labelled("Add email: ", p.email) + Labelled("Update birthday: ", p.birthday)
  }

  /** `generate_update_summary`: the lines joined by newlines, or nothing
      when there are none. No summary means the merge would change
      nothing, so skipping the update then loses nothing. */
  function GenerateUpdateSummary(c: Contact, newPhone: string, newEmail: string, newBirthday: string, o: Oracle)
    : (r: Option<string>)
    ensures r.None? <==> IsEmpty(ProposeChanges(c, newPhone, newEmail, newBirthday, o))
    ensures r.None? ==> AddOrUpdateContactInfo(c, newPhone, newEmail, newBirthday, o) == Ok(c)
    ensures r.Some? ==> IsPrefix(SummaryLines(ProposeChanges(c, newPhone, newEmail, newBirthday, o))[0], r.value)
    ensures var p := ProposeChanges(c, newPhone, newEmail, newBirthday, o);
      r.Some? ==>
        && (p.phone.Some? ==> Occurs("Add phone number: " + p.phone.value, r.value))
        && (p.email.Some? ==> Occurs("Add email: " + p.email.value, r.value))
        && (p.birthday.Some? ==> Occurs("Update birthday: " + p.birthday.value, r.value))
  {
    var lines := SummaryLines(ProposeChanges(c, newPhone, newEmail, newBirthday, o));
    if lines == [] then
      assert MergePhone(c.phones, newPhone) == c.phones;
      assert MergeEmail(c.emails, newEmail) == c.emails;
      None
    else
      JoinContains(lines, "\n");
      Some(Join(lines, "\n"))
  }

  /** Whenever the merge would change a contact, a summary is produced. */
  lemma MergeChangeIsAnnounced(c: Contact, newPhone: string, newEmail: string, newBirthday: string, o: Oracle)
    requires AddOrUpdateContactInfo(c, newPhone, newEmail, newBirthday, o) != Ok(c)
    ensures GenerateUpdateSummary(c, newPhone, newEmail, newBirthday, o).Some?
  {
  }

  /** The summary announces a birthday change the merge never makes: a
      stored birthday that differs from the incoming one is reported as
      updated and left as it is. */
  lemma SummaryOverannouncesBirthday(c: Contact, newBirthday: string, o: Oracle)
    requires c.birthday.Some? && newBirthday != ""
    requires o.parseBirthday(newBirthday).Some? && o.parseBirthday(newBirthday) != c.birthday
    ensures GenerateUpdateSummary(c, "", "", newBirthday, o).Some?
    ensures AddOrUpdateContactInfo(c, "", "", newBirthday, o) == Ok(c)
  {
    assert MergePhone(c.phones, "") == c.phones;
    assert MergeEmail(c.emails, "") == c.emails;
  }

  /** A birthday parsed in 2024 is stored with the placeholder year, while the
      summary compares against the unstamped date: re-running the same row
      proposes the birthday again, every time. */
  lemma SummaryRepeatsStampedBirthday(c: Contact, newBirthday: string, o: Oracle)
    requires c.birthday.None? && newBirthday != ""
    requires o.parseBirthday(newBirthday).Some?
    requires o.parseBirthday(newBirthday).value.year == UnknownYear
    requires Restamp(o.parseBirthday(newBirthday).value).Some?
    ensures AddOrUpdateContactInfo(c, "", "", newBirthday, o).Ok?
    ensures var once := AddOrUpdateContactInfo(c, "", "", newBirthday, o).value;
      && once.birthday.Some? && once.birthday.value.year == PlaceholderYear
      && GenerateUpdateSummary(once, "", "", newBirthday, o).Some?
  {
  }

  // ---------------------------------------------------------------------
  // The per-row decision (update_or_create_contact)

  /** A contact corroborates a canonical number when one of its stored
      numbers normalises to it. */
  predicate Corroborates(c: Contact, phone: string) {
    phone in NormalizedPhones(c.phones)
  }

  predicate ValidCandidates(store: Store, candidates: seq<nat>) {
    forall j :: 0 <= j < |candidates| ==> candidates[j] < |store|
  }

  /** Lines 140-147: the position, from `from` on, of the first candidate
      that corroborates the incoming number. */
  function FirstCorroborated(store: Store, candidates: seq<nat>, phone: string, from: nat): (r: Option<nat>)
    requires ValidCandidates(store, candidates)
    ensures r.Some? ==> from <= r.value < |candidates| && Corroborates(store[candidates[r.value]], phone)
    ensures r.Some? ==> forall j :: from <= j < r.value ==> !Corroborates(store[candidates[j]], phone)
    ensures r.None? ==> forall j :: from <= j < |candidates| ==> !Corroborates(store[candidates[j]], phone)
    decreases |candidates| - from
  {
    if from >= |candidates| then None
    else if Corroborates(store[candidates[from]], phone) then Some(from)
    else FirstCorroborated(store, candidates, phone, from + 1)
  }

  /** Lines 137-152: the corroborated candidate if any; otherwise the
      operator picks (skeptical mode) or the sole candidate is taken. */
  function SelectMatch(store: Store, candidates: seq<nat>, phone: string, skeptical: bool, answers: seq<bool>)
    : (r: (Option<nat>, seq<bool>))
    requires ValidCandidates(store, candidates)
    ensures r.0.Some? ==> r.0.value in candidates && r.0.value < |store|
    ensures !skeptical ==> r.1 == answers
  {
    match FirstCorroborated(store, candidates, phone, 0)
    case Some(pos) => (Some(candidates[pos]), answers)
    case None =>
      if skeptical then PromptForMatch(candidates, answers)
      else if |candidates| == 1 then (Some(candidates[0]), answers)
      else (None, answers)
  }

  /** The selection rule: phone corroboration decides first, asking
      nothing; failing that, the operator chooses in skeptical mode, and in
      automatic mode only a sole candidate is taken. */
  lemma SelectionRule(store: Store, candidates: seq<nat>, phone: string, skeptical: bool, answers: seq<bool>)
    requires ValidCandidates(store, candidates)
    ensures var r := SelectMatch(store, candidates, phone, skeptical, answers);
      FirstCorroborated(store, candidates, phone, 0).Some? ==>
        r == (Some(candidates[FirstCorroborated(store, candidates, phone, 0).value]), answers)
    ensures var r := SelectMatch(store, candidates, phone, skeptical, answers);
      !skeptical && FirstCorroborated(store, candidates, phone, 0).None? ==> (r.0.Some? <==> |candidates| == 1)
    ensures var r := SelectMatch(store, candidates, phone, skeptical, answers);
      skeptical && FirstCorroborated(store, candidates, phone, 0).None? ==> r == PromptForMatch(candidates, answers)
  {
  }

  /** Neither a row nor a batch removes values, renames a contact or
      replaces a birthday that is already set. */
  predicate Preserves(before: Store, after: Store) {
    && StoreKeepsValues(before, after)
    && forall i :: 0 <= i < |before| && before[i].birthday.Some? ==> after[i].birthday == before[i].birthday
  }

  /** Replacing one contact by a merge of it preserves the store. */
  lemma PreservesReplace(store: Store, k: nat, c: Contact)
    requires k < |store| && KeepsValues(store[k], c)
    requires store[k].birthday.Some? ==> c.birthday == store[k].birthday
    ensures Preserves(store, store[k := c])
  {
  }

  lemma PreservesAppend(store: Store, c: Contact)
    ensures Preserves(store, store + [c])
  {
  }

  lemma PreservesTransitive(a: Store, b: Store, c: Store)
    requires Preserves(a, b) && Preserves(b, c)
    ensures Preserves(a, c)
  {
    StoreKeepsValuesTransitive(a, b, c);
  }

  /** Lines 154-159 as a contract: the selected contact is left alone when
      there is no summary; with one, skeptical mode reads one reply and a no
      declines; otherwise the contact is updated, failing only when the
      merge fails. */
  predicate UpdateGate(store: Store, k: nat, answers: seq<bool>, row: Row, skeptical: bool, o: Oracle, r: Result<Step>)
    requires k < |store|
  {
    var summary := GenerateUpdateSummary(store[k], row.phone, row.email, row.birthday, o);
    var merged := AddOrUpdateContactInfo(store[k], row.phone, row.email, row.birthday, o);
    && (summary.None? ==> r == Ok(Step(State(store, answers), NothingToUpdate(k))))
    && (summary.Some? ==> (r.Ok? && r.value.outcome == UpdateDeclined(k) <==> skeptical && !Answer(answers, 0)))
    && (summary.Some? && (!skeptical || Answer(answers, 0)) ==>
          (r.Ok? <==> merged.Ok?) && (r.Ok? ==> r.value.outcome == Updated(k)))
    && (summary.Some? && skeptical && r.Ok? ==> r.value.state.answers == Drop(answers, 1))
  }

  /** Lines 159-166 as a contract: skeptical mode reads one reply and a no
      declines; otherwise the contact is created, failing only when the
      merge fails. */
  predicate CreateGate(answers: seq<bool>, row: Row, skeptical: bool, o: Oracle, r: Result<Step>) {
    var merged := AddOrUpdateContactInfo(NewContact(row.first, row.last), row.phone, row.email, row.birthday, o);
    && (r.Ok? && r.value.outcome == CreateDeclined <==> skeptical && !Answer(answers, 0))
    && ((!skeptical || Answer(answers, 0)) ==> (r.Ok? <==> merged.Ok?) && (r.Ok? ==> r.value.outcome == Created))
    && (skeptical && r.Ok? ==> r.value.state.answers == Drop(answers, 1))
  }

  /** Lines 154-159: the selected contact is merged into when its summary
      is non-empty and, in skeptical mode, the operator agrees. */
  function UpdateSelected(store: Store, k: nat, answers: seq<bool>, row: Row, skeptical: bool, o: Oracle)
    : (r: Result<Step>)
    requires k < |store|
    ensures r.Ok? ==> r.value.outcome == Updated(k) || r.value.outcome == NothingToUpdate(k)
                      || r.value.outcome == UpdateDeclined(k)
    ensures r.Ok? && r.value.outcome != Updated(k) ==> r.value.state.store == store
    ensures r.Ok? ==> Preserves(store, r.value.state.store) && |r.value.state.store| == |store|
    ensures r.Ok? && r.value.outcome == Updated(k) ==>
      && AddOrUpdateContactInfo(store[k], row.phone, row.email, row.birthday, o).Ok?
      && r.value.state.store == store[k := AddOrUpdateContactInfo(store[k], row.phone, row.email, row.birthday, o).value]
    ensures r.Ok? && r.value.outcome == Updated(k) ==>
      GenerateUpdateSummary(store[k], row.phone, row.email, row.birthday, o).Some?
    ensures GenerateUpdateSummary(store[k], row.phone, row.email, row.birthday, o).None? ==>
      r == Ok(Step(State(store, answers), NothingToUpdate(k)))
    ensures r.Ok? && !skeptical ==> r.value.state.answers == answers
    ensures !skeptical && r.Ok? ==> r.value.outcome != UpdateDeclined(k)
    ensures r.Abort? ==> AddOrUpdateContactInfo(store[k], row.phone, row.email, row.birthday, o).Abort?
    ensures r.Abort? ==> LeapDayCell(row.birthday, o)
    ensures UpdateGate(store, k, answers, row, skeptical, o, r)
  {
    if GenerateUpdateSummary(store[k], row.phone, row.email, row.birthday, o).None? then
      Ok(Step(State(store, answers), NothingToUpdate(k)))
    else
      var (yes, rest) := Confirm(skeptical, answers);
      if !yes then Ok(Step(State(store, rest), UpdateDeclined(k)))
      else
        match AddOrUpdateContactInfo(store[k], row.phone, row.email, row.birthday, o)
        case Abort(f) => Abort(f)
        case Ok(c) =>
          PreservesReplace(store, k, c);
          Ok(Step(State(store[k := c], rest), Updated(k)))
  }

  /** Lines 160-166: with nothing selected, a contact with the row's two
      names is created (after confirmation in skeptical mode), filled in
      by the merge, and added at the end of the store. */
  function CreateNew(store: Store, answers: seq<bool>, row: Row, skeptical: bool, o: Oracle): (r: Result<Step>)
    ensures r.Ok? ==> r.value.outcome == Created || r.value.outcome == CreateDeclined
    ensures r.Ok? && r.value.outcome == CreateDeclined ==> r.value.state.store == store
    ensures r.Ok? ==> Preserves(store, r.value.state.store)
    ensures r.Ok? && r.value.outcome == Created ==>
      && |r.value.state.store| == |store| + 1
      && r.value.state.store[|store|].first == row.first
      && r.value.state.store[|store|].last == row.last
    ensures r.Ok? && r.value.outcome == Created ==>
      && AddOrUpdateContactInfo(NewContact(row.first, row.last), row.phone, row.email, row.birthday, o).Ok?
      && r.value.state.store
         == store + [AddOrUpdateContactInfo(NewContact(row.first, row.last), row.phone, row.email, row.birthday, o).value]
    ensures r.Ok? && !skeptical ==> r.value.state.answers == answers && r.value.outcome == Created
    ensures r.Abort? ==> AddOrUpdateContactInfo(NewContact(row.first, row.last), row.phone, row.email, row.birthday, o).Abort?
    ensures r.Abort? ==> LeapDayCell(row.birthday, o)
    ensures CreateGate(answers, row, skeptical, o, r)
  {
    var (yes, rest) := Confirm(skeptical, answers);
    if !yes then Ok(Step(State(store, rest), CreateDeclined))
    else
      match AddOrUpdateContactInfo(NewContact(row.first, row.last), row.phone, row.email, row.birthday, o)
      case Abort(f) => Abort(f)
      case Ok(c) =>
        PreservesAppend(store, c);
        Ok(Step(State(store + [c], rest), Created))
  }

  /** Lines 137-166 for a given candidate list: select, then update the
      selection or create a contact. */
  function Decide(st: State, row: Row, candidates: seq<nat>, skeptical: bool, o: Oracle): (r: Result<Step>)
    requires ValidCandidates(st.store, candidates)
    ensures r.Ok? ==> Preserves(st.store, r.value.state.store)
    ensures r.Ok? && !skeptical ==> !Declined(r.value.outcome)
    ensures r.Ok? ==> |r.value.state.store| == |st.store| + (if r.value.outcome.Created? then 1 else 0)
    ensures r.Ok? && !r.value.outcome.Created? && !r.value.outcome.Updated? ==> r.value.state.store == st.store
    ensures r.Ok? && r.value.outcome.Created? ==>
      r.value.state.store[|st.store|].first == row.first && r.value.state.store[|st.store|].last == row.last
    ensures r.Ok? ==> !r.value.outcome.Skipped?
    ensures r.Ok? && !skeptical ==> r.value.state.answers == st.answers
    ensures r.Ok? && (r.value.outcome.Updated? || r.value.outcome.NothingToUpdate? || r.value.outcome.UpdateDeclined?) ==>
      r.value.outcome.index in candidates
    ensures r.Ok? && r.value.outcome.Updated? ==>
      GenerateUpdateSummary(st.store[r.value.outcome.index], row.phone, row.email, row.birthday, o).Some?
    ensures r.Ok? && r.value.outcome.Updated? ==>
      && AddOrUpdateContactInfo(st.store[r.value.outcome.index], row.phone, row.email, row.birthday, o).Ok?
      && r.value.state.store == st.store[r.value.outcome.index :=
           AddOrUpdateContactInfo(st.store[r.value.outcome.index], row.phone, row.email, row.birthday, o).value]
    ensures r.Ok? && r.value.outcome.Created? ==>
      && AddOrUpdateContactInfo(NewContact(row.first, row.last), row.phone, row.email, row.birthday, o).Ok?
      && r.value.state.store
         == st.store + [AddOrUpdateContactInfo(NewContact(row.first, row.last), row.phone, row.email, row.birthday, o).value]
    ensures r.Abort? ==> LeapDayCell(row.birthday, o)
    ensures var selection := SelectMatch(st.store, candidates, NormalizePhone(row.phone), skeptical, st.answers);
      && (selection.0.Some? ==> UpdateGate(st.store, selection.0.value, selection.1, row, skeptical, o, r))
      && (selection.0.None? ==> CreateGate(selection.1, row, skeptical, o, r))
  {
    var selection := SelectMatch(st.store, candidates, NormalizePhone(row.phone), skeptical, st.answers);
    if selection.0.Some? then
      UpdateSelected(st.store, selection.0.value, selection.1, row, skeptical, o)
    else
      CreateNew(st.store, selection.1, row, skeptical, o)
  }

  /** `update_or_create_contact`: one row's decision and its effect. A row
      keeps every existing value, adds a contact only when it creates one,
      and touches only a candidate of the row's name. */
  function UpdateOrCreateContact(st: State, row: Row, skeptical: bool, o: Oracle): (r: Result<Step>)
    ensures r.Ok? ==> Preserves(st.store, r.value.state.store)
    ensures r.Ok? ==> |r.value.state.store| == |st.store| + (if r.value.outcome.Created? then 1 else 0)
    ensures r.Ok? && !r.value.outcome.Created? && !r.value.outcome.Updated? ==> r.value.state.store == st.store
    ensures r.Ok? && r.value.outcome.Created? ==>
      r.value.state.store[|st.store|].first == row.first && r.value.state.store[|st.store|].last == row.last
    ensures r.Ok? ==> !r.value.outcome.Skipped?
    ensures r.Ok? && !skeptical ==> r.value.state.answers == st.answers
    ensures r.Ok? && !skeptical ==> !Declined(r.value.outcome)
    ensures r.Ok? && (r.value.outcome.Updated? || r.value.outcome.NothingToUpdate? || r.value.outcome.UpdateDeclined?) ==>
      r.value.outcome.index in Candidates(st.store, row.first, row.last, o)
    ensures r.Ok? && r.value.outcome.Updated? ==>
      GenerateUpdateSummary(st.store[r.value.outcome.index], row.phone, row.email, row.birthday, o).Some?
    ensures r.Ok? && r.value.outcome.Updated? ==>
      && AddOrUpdateContactInfo(st.store[r.value.outcome.index], row.phone, row.email, row.birthday, o).Ok?
      && r.value.state.store == st.store[r.value.outcome.index :=
           AddOrUpdateContactInfo(st.store[r.value.outcome.index], row.phone, row.email, row.birthday, o).value]
    ensures r.Ok? && r.value.outcome.Created? ==>
      && AddOrUpdateContactInfo(NewContact(row.first, row.last), row.phone, row.email, row.birthday, o).Ok?
      && r.value.state.store
         == st.store + [AddOrUpdateContactInfo(NewContact(row.first, row.last), row.phone, row.email, row.birthday, o).value]
    ensures r.Abort? ==> LeapDayCell(row.birthday, o)
    ensures var selection := SelectMatch(st.store, Candidates(st.store, row.first, row.last, o), NormalizePhone(row.phone), skeptical, st.answers);
      && (selection.0.Some? ==> UpdateGate(st.store, selection.0.value, selection.1, row, skeptical, o, r))
      && (selection.0.None? ==> CreateGate(selection.1, row, skeptical, o, r))
  {
    Decide(st, row, Candidates(st.store, row.first, row.last, o), skeptical, o)
  }

  /** In automatic mode the first candidate whose numbers corroborate the
      incoming phone is the one merged into, whatever its store position. */
  lemma CorroboratedCandidateWins(st: State, row: Row, o: Oracle)
    requires FirstCorroborated(st.store, Candidates(st.store, row.first, row.last, o), NormalizePhone(row.phone), 0).Some?
    ensures var candidates := Candidates(st.store, row.first, row.last, o);
      var k := candidates[FirstCorroborated(st.store, candidates, NormalizePhone(row.phone), 0).value];
      var r := UpdateOrCreateContact(st, row, false, o);
      r.Abort? || r.value.outcome == Updated(k) || r.value.outcome == NothingToUpdate(k)
  {
  }

  /** In automatic mode, two or more candidates none of which corroborates
      the phone never merge: a new contact is created. */
  lemma AmbiguousMatchCreates(st: State, row: Row, o: Oracle)
    requires |Candidates(st.store, row.first, row.last, o)| >= 2
    requires FirstCorroborated(st.store, Candidates(st.store, row.first, row.last, o), NormalizePhone(row.phone), 0).None?
    ensures var r := UpdateOrCreateContact(st, row, false, o);
      r.Abort? || r.value.outcome == Created
  {
  }

  /** In automatic mode a sole uncorroborated candidate is taken. */
  lemma SoleCandidateSelected(st: State, row: Row, o: Oracle)
    requires |Candidates(st.store, row.first, row.last, o)| == 1
    ensures var k := Candidates(st.store, row.first, row.last, o)[0];
      var r := UpdateOrCreateContact(st, row, false, o);
      r.Abort? || r.value.outcome == Updated(k) || r.value.outcome == NothingToUpdate(k)
  {
  }

  /** Increasing positions below 2 that include 0 and 1 are exactly 0, 1. */
  lemma BothOfTwo(r: seq<nat>)
    requires Increasing(r) && 0 in r && 1 in r
    requires forall j :: 0 <= j < |r| ==> r[j] < 2
    ensures r == [0, 1]
  {
    var i :| 0 <= i < |r| && r[i] == 0;
    var j :| 0 <= j < |r| && r[j] == 1;
    IncreasingAtLeastIndex(r, |r| - 1);
    assert r[0] < r[1];
  }

  /** Two contacts that both carry the incoming name are, in store
      order, the whole candidate list. */
  lemma NamesakesAreCandidates(a: Contact, b: Contact, first: string, last: string, o: Oracle)
    requires ExistingName(a) == IncomingName(first, last)
    requires ExistingName(b) == IncomingName(first, last)
    ensures Candidates([a, b], first, last, o) == [0, 1]
  {
    var candidates := Candidates([a, b], first, last, o);
    ExactMatchesMaskFuzzy([a, b], first, last, o, 0);
    assert 0 in candidates && 1 in candidates;
    BothOfTwo(candidates);
  }

  /** Two contacts with the incoming name: the one whose numbers include
      the incoming phone is merged into even when the other comes first. */
  lemma PhoneCorroborationBeatsOrder(a: Contact, b: Contact, row: Row, answers: seq<bool>, o: Oracle)
    requires ExistingName(a) == IncomingName(row.first, row.last)
    requires ExistingName(b) == IncomingName(row.first, row.last)
    requires !Corroborates(a, NormalizePhone(row.phone)) && Corroborates(b, NormalizePhone(row.phone))
    ensures var r := UpdateOrCreateContact(State([a, b], answers), row, false, o);
      r.Abort? || r.value.outcome == Updated(1) || r.value.outcome == NothingToUpdate(1)
  {
    NamesakesAreCandidates(a, b, row.first, row.last, o);
    assert FirstCorroborated([a, b], [0, 1], NormalizePhone(row.phone), 0) == Some(1);
    CorroboratedCandidateWins(State([a, b], answers), row, o);
  }

  // ---------------------------------------------------------------------
  // The batch (process_contacts)

  /** What one step does to the address book: a creation appends the
      row's merged new contact, an update replaces the updated contact by
      its merge with the row, and any other outcome leaves the book alone. */
  predicate StepEffect(before: Store, row: Row, o: Oracle, step: Step) {
    var created := AddOrUpdateContactInfo(NewContact(row.first, row.last), row.phone, row.email, row.birthday, o);
    && (step.outcome.Created? ==> created.Ok? && step.state.store == before + [created.value])
    && (step.outcome.Updated? ==>
          && step.outcome.index < |before|
          && var merged := AddOrUpdateContactInfo(before[step.outcome.index], row.phone, row.email, row.birthday, o);
             merged.Ok? && step.state.store == before[step.outcome.index := merged.value])
    && (!Wrote(step.outcome) ==> step.state.store == before)
  }

  /** One visited row: a falsy first name skips it; any other row is
      decided as its candidates, the phone and the operator dictate. */
  function ProcessRow(st: State, row: Row, skeptical: bool, o: Oracle): (r: Result<Step>)
    ensures row.first == "" ==> r == Ok(Step(st, Skipped))
    ensures r.Ok? ==> (r.value.outcome.Skipped? <==> row.first == "")
    ensures r.Ok? ==> Preserves(st.store, r.value.state.store)
    ensures r.Ok? && !skeptical ==> r.value.state.answers == st.answers
    ensures r.Abort? ==> LeapDayCell(row.birthday, o)
    ensures r.Ok? ==> StepEffect(st.store, row, o, r.value)
    ensures r.Ok? && !skeptical ==> !Declined(r.value.outcome)
  {
    if row.first == "" then Ok(Step(st, Skipped))
    else
      NamedRowEffect(st, row, skeptical, o);
      UpdateOrCreateContact(st, row, skeptical, o)
  }

  /** A named row is decided as `update_or_create_contact` decides it:
      through the selection among its candidates, the summary and the
      operator's reply. */
  lemma NamedRowDecided(st: State, row: Row, skeptical: bool, o: Oracle)
    requires row.first != ""
    ensures var r := ProcessRow(st, row, skeptical, o);
      var selection := SelectMatch(st.store, Candidates(st.store, row.first, row.last, o), NormalizePhone(row.phone), skeptical, st.answers);
      && (selection.0.Some? ==> UpdateGate(st.store, selection.0.value, selection.1, row, skeptical, o, r))
      && (selection.0.None? ==> CreateGate(selection.1, row, skeptical, o, r))
  {
    assert ProcessRow(st, row, skeptical, o) == UpdateOrCreateContact(st, row, skeptical, o);
  }

  /** A named row's step has the effect its outcome reports. */
  lemma NamedRowEffect(st: State, row: Row, skeptical: bool, o: Oracle)
    ensures var r := UpdateOrCreateContact(st, row, skeptical, o);
      r.Ok? ==> StepEffect(st.store, row, o, r.value)
  {
  }

  /** No row's birthday is 29 February of the unknown year, so no row can
      abort the batch. */
  predicate NoLeapDayCells(rows: seq<Row>, o: Oracle) {
    forall j :: 0 <= j < |rows| ==> !LeapDayCell(rows[j].birthday, o)
  }

  lemma NoLeapDayCellsTail(rows: seq<Row>, o: Oracle)
    ensures |rows| > 0 && NoLeapDayCells(rows, o) ==>
      !LeapDayCell(rows[0].birthday, o) && NoLeapDayCells(rows[1..], o)
  {
    if |rows| > 0 && NoLeapDayCells(rows, o) {
      forall j | 0 <= j < |rows[1..]|
        ensures !LeapDayCell(rows[1..][j].birthday, o)
      {
        assert rows[1..][j] == rows[j + 1];
      }
    }
  }

  /** The row loop from row number `done + 1` on: stop at the end of the
      sheet or at the first row number beyond the limit; an exception ends
      the batch before `save()`. */
  function ProcessRows(st: State, rows: seq<Row>, done: nat, limit: Option<int>, skeptical: bool, o: Oracle)
    : (r: Result<Run>)
    ensures r.Ok? ==> |r.value.outcomes| == VisitCount(Remaining(limit, done), |rows|)
    ensures r.Ok? ==> forall j :: 0 <= j < |r.value.outcomes| ==>
      (r.value.outcomes[j].Skipped? <==> rows[j].first == "")
    ensures r.Ok? ==> Preserves(st.store, r.value.state.store)
    ensures r.Ok? && !skeptical ==> r.value.state.answers == st.answers
    decreases |rows|
  {
    if rows == [] then Ok(Run(st, []))
    else if limit.Some? && done + 1 > limit.value then
      VisitCountStop(limit, done, |rows|);
      Ok(Run(st, []))
    else
      VisitCountStep(limit, done, |rows|);
      match ProcessRow(st, rows[0], skeptical, o)
      case Abort(f) => Abort(f)
      case Ok(step) =>
        match ProcessRows(step.state, rows[1..], done + 1, limit, skeptical, o)
        case Abort(f) => Abort(f)
        case Ok(run) =>
          PreservesTransitive(st.store, step.state.store, run.state.store);
          SkipsFollowRows(step.outcome, run.outcomes, rows);
          Ok(Run(run.state, [step.outcome] + run.outcomes))
  }

  /** Only a leap-day birthday aborts: a sheet without one always runs to
      the end of the loop. */
  lemma {:induction false} BatchCompletes(st: State, rows: seq<Row>, done: nat, limit: Option<int>,
                                          skeptical: bool, o: Oracle)
    ensures NoLeapDayCells(rows, o) ==> ProcessRows(st, rows, done, limit, skeptical, o).Ok?
    decreases |rows|
  {
    if rows != [] && !(limit.Some? && done + 1 > limit.value) && NoLeapDayCells(rows, o) {
      NoLeapDayCellsTail(rows, o);
      var step := ProcessRow(st, rows[0], skeptical, o);
      BatchCompletes(step.value.state, rows[1..], done + 1, limit, skeptical, o);
    }
  }

  /** What a finished batch did to the book: it grew by exactly the
      contacts created, automatic mode declined nothing, and a batch that
      neither created nor updated left the book as it was. */
  lemma {:induction false} BatchEffects(st: State, rows: seq<Row>, done: nat, limit: Option<int>,
                                        skeptical: bool, o: Oracle)
    ensures var r := ProcessRows(st, rows, done, limit, skeptical, o);
      r.Ok? ==> |r.value.state.store| == |st.store| + CreatedCount(r.value.outcomes)
    ensures var r := ProcessRows(st, rows, done, limit, skeptical, o);
      r.Ok? && !skeptical ==> NoneDeclined(r.value.outcomes)
    ensures var r := ProcessRows(st, rows, done, limit, skeptical, o);
      r.Ok? && NoneWrote(r.value.outcomes) ==> r.value.state.store == st.store
    decreases |rows|
  {
    if rows != [] && !(limit.Some? && done + 1 > limit.value) {
      var first := ProcessRow(st, rows[0], skeptical, o);
      if first.Ok? {
        var step := first.value;
        BatchEffects(step.state, rows[1..], done + 1, limit, skeptical, o);
        var rest := ProcessRows(step.state, rows[1..], done + 1, limit, skeptical, o);
        if rest.Ok? {
          StepThenRun(st.store, step, rest.value);
          OutcomesCons(step.outcome, rest.value.outcomes);
        }
      }
    }
  }

  /** A skip recorded for the first row, followed by skips that track
      the remaining rows, tracks all the rows. */
  lemma SkipsFollowRows(first: Outcome, rest: seq<Outcome>, rows: seq<Row>)
    requires |rows| > 0 && (first.Skipped? <==> rows[0].first == "")
    requires |rest| <= |rows| - 1
    requires forall j :: 0 <= j < |rest| ==> (rest[j].Skipped? <==> rows[1..][j].first == "")
    ensures forall j :: 0 <= j < |[first] + rest| ==> (([first] + rest)[j].Skipped? <==> rows[j].first == "")
  {
    forall j | 0 <= j < |[first] + rest|
      ensures ([first] + rest)[j].Skipped? <==> rows[j].first == ""
    {
      if j > 0 {
        assert ([first] + rest)[j] == rest[j - 1];
        assert rows[1..][j - 1] == rows[j];
      }
    }
  }

  /** `process_contacts` over the data rows (the header is not among them).
      The final `save()` persists the store and is not modelled further. */
  function ProcessContacts(store: Store, rows: seq<Row>, skeptical: bool, limit: Option<int>,
                           answers: seq<bool>, o: Oracle): (r: Result<Run>)
    ensures r.Ok? ==> |r.value.outcomes| == VisitCount(limit, |rows|)
    ensures r.Ok? ==> forall j :: 0 <= j < |r.value.outcomes| ==>
      (r.value.outcomes[j].Skipped? <==> rows[j].first == "")
    ensures r.Ok? ==> Preserves(store, r.value.state.store)
    ensures r.Ok? && !skeptical ==> r.value.state.answers == answers
    ensures r.Ok? ==> |r.value.state.store| == |store| + CreatedCount(r.value.outcomes)
    ensures r.Ok? && !skeptical ==> NoneDeclined(r.value.outcomes)
    ensures r.Ok? && NoneWrote(r.value.outcomes) ==> r.value.state.store == store
    ensures NoLeapDayCells(rows, o) ==> r.Ok?
  {
    assert Remaining(limit, 0) == limit;
    BatchCompletes(State(store, answers), rows, 0, limit, skeptical, o);
    BatchEffects(State(store, answers), rows, 0, limit, skeptical, o);
    ProcessRows(State(store, answers), rows, 0, limit, skeptical, o)
  }
}

=== FILE: engines.dfy ===
/** How the legacy engine (updater.py) and the current one
    (contact_manager.py) differ on the same input: which of them finds a
    contact, absorbs a repeated value or keeps a stored birthday. */
module Engines {
  import opened Text
  import opened Records
  import opened PhoneUtils
  import opened PhoneExamples
  import CM = ContactManager
  import U = Updater

  // ---------------------------------------------------------------------
  // De-duplication

  /** A number the legacy engine absorbs (the very string is stored) is
      absorbed by the current engine too: its canonical form is stored. */
  lemma LegacyAbsorbedPhoneIsAbsorbed(phones: seq<string>, value: string)
    requires U.AddIfAbsent(phones, value) == phones
    ensures CM.MergePhone(phones, value) == phones
  {
    var i :| 0 <= i < |phones| && phones[i] == value;
    assert CM.NormalizedPhones(phones)[i] == NormalizePhone(value);
  }

  /** The same for addresses: an address stored verbatim has its key
      stored. */
  lemma LegacyAbsorbedEmailIsAbsorbed(emails: seq<string>, value: string)
    requires U.AddIfAbsent(emails, value) == emails
    ensures CM.MergeEmail(emails, value) == emails
  {
    var i :| 0 <= i < |emails| && emails[i] == value;
    assert CM.EmailKeys(emails)[i] == CM.EmailKey(value);
  }

  /** A number spelled differently from a stored one but with the same
      canonical form: the current engine absorbs it, the legacy engine
      appends it as a second entry. */
  lemma SpellingVariantSplitsEngines(phones: seq<string>, stored: string, variant: string)
    requires stored in phones && variant !in phones
    requires NormalizePhone(variant) == NormalizePhone(stored)
    ensures CM.MergePhone(phones, variant) == phones
    ensures U.AddIfAbsent(phones, variant) == phones + [variant]
  {
    var i :| 0 <= i < |phones| && phones[i] == stored;
    assert CM.NormalizedPhones(phones)[i] == NormalizePhone(variant);
  }

  /** "(540) 226-2697" stored, "540-226-2697" in the sheet: the legacy
      engine ends up with both spellings, the current one with one. */
  lemma DashedAfterParenthesised(area: string, exchange: string, line: string)
    requires Groups(area, exchange, line)
    ensures CM.MergePhone([Parenthesised(area, exchange, line)], Dashed(area, exchange, line))
      == [Parenthesised(area, exchange, line)]
    ensures U.AddIfAbsent([Parenthesised(area, exchange, line)], Dashed(area, exchange, line))
      == [Parenthesised(area, exchange, line), Dashed(area, exchange, line)]
  {
    NormalizeSpellings(area, exchange, line);
    var p := Parenthesised(area, exchange, line);
    var d := Dashed(area, exchange, line);
    assert p[0] == '(' && IsDigit(d[0]);
    SpellingVariantSplitsEngines([p], p, d);
  }

  /** Re-reading a row whose unprefixed number the current engine stored
      as "+1..." (ten or more canonical digits): the current engine absorbs
      it, the legacy engine sees a different string and appends it. */
  lemma StoredFormSplitsEngines(value: string)
    requires !StartsWith(value, '+') && |NormalizePhone(value)| >= 10
    ensures var stored := FormatForStorage(value, DefaultCountryCode);
      CM.MergePhone([stored], value) == [stored]
    ensures var stored := FormatForStorage(value, DefaultCountryCode);
      U.AddIfAbsent([stored], value) == [stored, value]
  {
    var stored := FormatForStorage(value, DefaultCountryCode);
    NormalizeAfterFormatIff(value);
    assert StartsWith(stored, '+');
    assert stored != value;
    assert CM.NormalizedPhones([stored]) == [NormalizePhone(value)];
  }

  // ---------------------------------------------------------------------
  // Birthdays

  /** A row with a different, parseable birthday: the legacy engine
      overwrites the stored one, the current engine keeps it. */
  lemma BirthdaySplitsEngines(c: Contact, row: Row, o: Oracle)
    requires c.birthday.Some? && row.birthday != ""
    requires o.parseBirthday(row.birthday).Some? && o.parseBirthday(row.birthday) != c.birthday
    ensures U.UpdateContact(c, row, o).birthday == o.parseBirthday(row.birthday)
    ensures U.UpdateContact(c, row, o).birthday != c.birthday
    ensures CM.AddOrUpdateContactInfo(c, row.phone, row.email, row.birthday, o).Ok?
    ensures CM.AddOrUpdateContactInfo(c, row.phone, row.email, row.birthday, o).value.birthday == c.birthday
  {
  }

  // ---------------------------------------------------------------------
  // Matching

  /** For two present names with no surrounding whitespace, a contact
      carrying both is matched by the legacy engine in skeptical mode and is
      an exact candidate of the current engine. */
  lemma {:induction false} LegacyMatchIsExactCandidate(store: Store, first: string, last: string, o: Oracle, k: nat)
    requires first != "" && last != "" && Strip(first) == first && Strip(last) == last
    requires k < |store| && store[k].first == first && store[k].last == last
    ensures k in U.FindMatchingContact(store, last, first)
    ensures k in CM.FindMatchingContact(store, first, last, CM.ExactThreshold, o)
    ensures k in CM.Candidates(store, first, last, o)
  {
    CM.CreatedContactMatchesItsRow(first, last);
    assert CM.ExistingName(store[k]) == CM.ExistingName(NewContact(first, last));
    assert CM.Qualifies(store[k], CM.IncomingName(first, last), CM.ExactThreshold, o);
  }

  /** The stripped name "first last" and its lower-case form. */
  lemma JoinedNameKey(first: string, last: string)
    requires first != "" && last != ""
    requires Strip(first) == first && Strip(last) == last
    ensures CM.IncomingName(first, last) == Lower(first) + " " + Lower(last)
  {
    var joined := first + " " + last;
    assert joined[0] == first[0] && joined[|joined| - 1] == last[|last| - 1];
    StripOfStripped(joined);
    LowerConcat(first, " ");
    LowerConcat(first + " ", last);
    assert Lower(" ") == " ";
  }

  /** A stored last name that differs from the row's only in letter case:
      the legacy engine never matches it, in either mode, while the current
      engine takes it as an exact candidate. */
  lemma {:induction false} CaseOnlyDifferenceSplitsEngines(store: Store, first: string, last: string, o: Oracle, k: nat)
    requires k < |store| && store[k].first == first
    requires store[k].last != last && Lower(store[k].last) == Lower(last)
    requires first != "" && last != ""
    requires Strip(first) == first && Strip(last) == last && Strip(store[k].last) == store[k].last
    ensures k !in U.FindMatchingContact(store, last, first)
    ensures k !in U.FindMatchingContact(store, last, "")
    ensures k in CM.FindMatchingContact(store, first, last, CM.ExactThreshold, o)
    ensures k in CM.Candidates(store, first, last, o)
  {
    var stored := store[k].last;
    assert |stored| == |Lower(stored)| == |Lower(last)| == |last|;
    CM.CreatedContactMatchesItsRow(first, stored);
    JoinedNameKey(first, stored);
    JoinedNameKey(first, last);
    assert CM.ExistingName(store[k]) == CM.ExistingName(NewContact(first, stored));
    assert CM.Qualifies(store[k], CM.IncomingName(first, last), CM.ExactThreshold, o);
  }
}

=== FILE: phone_examples.dfy ===
/** The phone spellings the repository's tests use, for every choice of
    digits: how each canonicalises and how each is stored. */
module PhoneExamples {
  import opened Text
  import opened PhoneUtils

  predicate NoDigits(s: string) {
    forall i :: 0 <= i < |s| ==> !IsDigit(s[i])
  }

  lemma {:induction false} KeepDigitsOfSeparator(s: string)
    requires NoDigits(s)
    ensures KeepDigits(s) == []
    decreases |s|
  {
    if s != [] {
      KeepDigitsOfSeparator(s[1..]);
    }
  }

  /** A separator followed by digits has exactly those digits. */
  lemma DigitsAfterSeparator(sep: string, d: string)
    requires NoDigits(sep) && AllDigits(d)
    ensures KeepDigits(sep + d) == d
  {
    KeepDigitsConcat(sep, d);
    KeepDigitsOfSeparator(sep);
    KeepDigitsOfDigits(d);
  }

  /** A North American number's three digit groups. */
  predicate Groups(area: string, exchange: string, line: string) {
    && AllDigits(area) && AllDigits(exchange) && AllDigits(line)
    && |area| == 3 && |exchange| == 3 && |line| == 4
  }

  /** "(540) 226-2697" */
  function Parenthesised(area: string, exchange: string, line: string): string {
    "(" + area + (") " + exchange + ("-" + line))
  }

  /** "+1 (540) 226-2697" */
  function PlusPrefixed(area: string, exchange: string, line: string): string {
    "+1 " + Parenthesised(area, exchange, line)
  }

  /** "1-540-226-2697" */
  function DashedWithOne(area: string, exchange: string, line: string): string {
    "1" + ("-" + area + ("-" + exchange + ("-" + line)))
  }

  /** "540-226-2697" */
  function Dashed(area: string, exchange: string, line: string): string {
    area + ("-" + exchange + ("-" + line))
  }

  lemma DigitsOfParenthesised(area: string, exchange: string, line: string)
    requires Groups(area, exchange, line)
    ensures KeepDigits(Parenthesised(area, exchange, line)) == area + exchange + line
  {
    DigitsAfterSeparator("-", line);
    DigitsAfterSeparator(") ", exchange);
    KeepDigitsConcat(") " + exchange, "-" + line);
    DigitsAfterSeparator("(", area);
    KeepDigitsConcat("(" + area, ") " + exchange + ("-" + line));
  }

  lemma DigitsOfDashed(area: string, exchange: string, line: string)
    requires Groups(area, exchange, line)
    ensures KeepDigits(Dashed(area, exchange, line)) == area + exchange + line
  {
    DigitsAfterSeparator("-", line);
    DigitsAfterSeparator("-", exchange);
    KeepDigitsConcat("-" + exchange, "-" + line);
    KeepDigitsOfDigits(area);
    KeepDigitsConcat(area, "-" + exchange + ("-" + line));
  }

  lemma DigitsOfDashedWithOne(area: string, exchange: string, line: string)
    requires Groups(area, exchange, line)
    ensures KeepDigits(DashedWithOne(area, exchange, line)) == "1" + (area + exchange + line)
  {
    DigitsAfterSeparator("-", line);
    DigitsAfterSeparator("-", exchange);
    KeepDigitsConcat("-" + exchange, "-" + line);
    DigitsAfterSeparator("-", area);
    KeepDigitsConcat("-" + area, "-" + exchange + ("-" + line));
    KeepDigitsOfDigits("1");
    KeepDigitsConcat("1", "-" + area + ("-" + exchange + ("-" + line)));
  }

  lemma DigitsOfPlusPrefixed(area: string, exchange: string, line: string)
    requires Groups(area, exchange, line)
    ensures KeepDigits(PlusPrefixed(area, exchange, line)) == "1" + (area + exchange + line)
  {
    DigitsOfParenthesised(area, exchange, line);
    assert "+1 " == "+" + "1" + " ";
    KeepDigitsOfSeparator("+");
    KeepDigitsOfSeparator(" ");
    KeepDigitsOfDigits("1");
    KeepDigitsConcat("+", "1");
    KeepDigitsConcat("+1", " ");
    KeepDigitsConcat("+1 ", Parenthesised(area, exchange, line));
  }

  /** Lines 18-20 of the tests: the parenthesised, "+1"-prefixed and
      "1-"-prefixed spellings of a ten-digit number all canonicalise to its
      ten digits. */
  lemma NormalizeSpellings(area: string, exchange: string, line: string)
    requires Groups(area, exchange, line)
    ensures NormalizePhone(Parenthesised(area, exchange, line)) == area + exchange + line
    ensures NormalizePhone(PlusPrefixed(area, exchange, line)) == area + exchange + line
    ensures NormalizePhone(DashedWithOne(area, exchange, line)) == area + exchange + line
    ensures NormalizePhone(Dashed(area, exchange, line)) == area + exchange + line
  {
    DigitsOfParenthesised(area, exchange, line);
    DigitsOfPlusPrefixed(area, exchange, line);
    DigitsOfDashedWithOne(area, exchange, line);
    DigitsOfDashed(area, exchange, line);
    assert ("1" + (area + exchange + line))[1..] == area + exchange + line;
  }

  /** Lines 24-26 of the tests: the parenthesised and dashed spellings are
      stored as "+1" and the ten digits, but the "+1"-prefixed spelling is
      stored exactly as typed, which is not that string. */
  lemma FormatSpellings(area: string, exchange: string, line: string)
    requires Groups(area, exchange, line)
    ensures FormatForStorage(Parenthesised(area, exchange, line), DefaultCountryCode) == "+1" + (area + exchange + line)
    ensures FormatForStorage(Dashed(area, exchange, line), DefaultCountryCode) == "+1" + (area + exchange + line)
    ensures FormatForStorage(PlusPrefixed(area, exchange, line), DefaultCountryCode) == PlusPrefixed(area, exchange, line)
    ensures FormatForStorage(PlusPrefixed(area, exchange, line), DefaultCountryCode) != "+1" + (area + exchange + line)
  {
    NormalizeSpellings(area, exchange, line);
    var plus := PlusPrefixed(area, exchange, line);
    assert plus[0] == '+';
    assert |plus| == 17;
  }

  /** A ten-digit number behind two "1"s loses one "1" per normalisation,
      so canonicalising twice is not the same as canonicalising once. */
  lemma NormalizeShrinksTwice(d: string)
    requires AllDigits(d) && |d| == 10
    ensures NormalizePhone("11" + d) == "1" + d
    ensures NormalizePhone(NormalizePhone("11" + d)) == d
  {
    assert AllDigits("11" + d);
    KeepDigitsOfDigits("11" + d);
    assert ("11" + d)[1..] == "1" + d;
    KeepDigitsOfDigits("1" + d);
    assert ("1" + d)[1..] == d;
  }
}

=== FILE: phone_utils.dfy ===
/** Phone canonicalisation: a digits-only form for comparison and a
    country-code-prefixed form for storage (phone_utils.py). */
module PhoneUtils {
  import opened Text

  /** Every non-digit removed (ASCII digits only): the digits of `s`, in order. */
  function KeepDigits(s: string): (r: string)
    ensures AllDigits(r)
    ensures |r| <= |s|
  {
    if s == [] then [] else (if IsDigit(s[0]) then [s[0]] else []) + KeepDigits(s[1..])
  }

  /** A string of digits only is its own digit string. */
  lemma {:induction false} KeepDigitsOfDigits(s: string)
    requires AllDigits(s)
    ensures KeepDigits(s) == s
    decreases |s|
  {
    if s != [] {
      KeepDigitsOfDigits(s[1..]);
    }
  }

  lemma {:induction false} KeepDigitsConcat(a: string, b: string)
    ensures KeepDigits(a + b) == KeepDigits(a) + KeepDigits(b)
    decreases |a|
  {
    if a != [] {
      assert (a + b)[1..] == a[1..] + b;
      KeepDigitsConcat(a[1..], b);
    } else {
      assert a + b == b;
    }
  }

  /** True when the digit string reads as a US number with its leading
      country-code "1" still attached. */
  predicate HasUsPrefix(digits: string) {
    |digits| > 10 && digits[0] == '1'
  }

  /** `normalize_phone_number`: the digits of `s`, less one leading "1"
      when there are more than ten of them. */
  function NormalizePhone(s: string): (r: string)
    ensures AllDigits(r)
    ensures r == KeepDigits(s) || (KeepDigits(s) == "1" + r && |r| >= 10)
    ensures r != KeepDigits(s) <==> HasUsPrefix(KeepDigits(s))
    ensures |r| <= |s|
  {
    var digits := KeepDigits(s);
    if HasUsPrefix(digits) then digits[1..] else digits
  }

  /** The `default_country_code` argument's default. */
  const DefaultCountryCode: string := "+1"

  /** `format_phone_number_for_storage`: an input already carrying a "+" is
      stored as written; any other gets the country code in front of its
      canonical digits. */
  function FormatForStorage(s: string, countryCode: string): (r: string)
    ensures StartsWith(countryCode, '+') ==> StartsWith(r, '+')
    ensures StartsWith(s, '+') ==> r == s
    ensures !StartsWith(s, '+') ==> KeepDigits(r) == KeepDigits(countryCode) + NormalizePhone(s)
    ensures !StartsWith(s, '+') ==> IsPrefix(countryCode, r) && r[|countryCode|..] == NormalizePhone(s)
  {
    if StartsWith(s, '+') then s
    else
      KeepDigitsConcat(countryCode, NormalizePhone(s));
      KeepDigitsOfDigits(NormalizePhone(s));
      countryCode + NormalizePhone(s)
  }

  /** Normalising twice changes nothing exactly when the canonical form does
      not itself start with a "1" and run past ten digits. */
  lemma NormalizeIdempotentIff(s: string)
    ensures NormalizePhone(NormalizePhone(s)) == NormalizePhone(s)
        <==> !HasUsPrefix(NormalizePhone(s))
  {
    KeepDigitsOfDigits(NormalizePhone(s));
  }

  /** Re-normalising a stored number gives back the incoming canonical form
      exactly when the input was kept verbatim (it had a "+") or has at least
      ten canonical digits. A shorter number d is stored as "+1" + d and then
      reads back as "1" + d. */
  lemma {:induction false} NormalizeAfterFormatIff(s: string)
    ensures NormalizePhone(FormatForStorage(s, DefaultCountryCode)) == NormalizePhone(s)
        <==> StartsWith(s, '+') || |NormalizePhone(s)| >= 10
  {
    if !StartsWith(s, '+') {
      var n := NormalizePhone(s);
      var stored := FormatForStorage(s, DefaultCountryCode);
      assert KeepDigits(DefaultCountryCode) == "1" by {
        assert DefaultCountryCode == ['+'] + ['1'];
      }
      assert KeepDigits(stored) == "1" + n;
      if |n| >= 10 {
        assert HasUsPrefix("1" + n);
        assert ("1" + n)[1..] == n;
      } else {
        assert NormalizePhone(stored) == "1" + n;
        assert |"1" + n| != |n|;
      }
    }
  }
}

=== FILE: records.dfy ===
/** The data both engines share: contacts in the address book, spreadsheet
    rows, the two library collaborators (fuzzy ratio and birthday parser),
    the operator's answers, and what one row's processing reports. */
module Records {
  import opened Text

  datatype Option<+T> = None | Some(value: T)

  /** A calendar date as a (year, month, day) triple. Time of day and time
      zones play no part. */
  datatype Date = Date(year: nat, month: nat, day: nat)

  /** An address-book person. A missing first or last name reads as "",
      which is what `value or ""` gives in the source. */
  datatype Contact = Contact(
    first: string,
    last: string,
    phones: seq<string>,
    emails: seq<string>,
    birthday: Option<Date>)

  /** The address book, in `people()` order. Candidates are positions in it. */
  type Store = seq<Contact>

  /** One spreadsheet data row, in column order. An empty cell, which the
      spreadsheet reader returns as None, is "". */
  datatype Row = Row(
    first: string,
    last: string,
    phone: string,
    email: string,
    location: string,
    social: string,
    birthday: string)

  /** How a cell reads inside an f-string. An empty cell comes back from
      the spreadsheet as None, which Python renders as "None". */
  function Shown(cell: string): (r: string)
    ensures cell != "" ==> r == cell
    ensures cell == "" ==> r == "None"
    ensures r != ""
  {
    if cell == "" then "None" else cell
  }

  /** A `fuzz.ratio` score. */
  type Score = x: int | 0 <= x <= 100

  /** The two library functions the engines call but this model does not
      define: fuzzywuzzy's `fuzz.ratio` and the birthday parser. */
  datatype Oracle = Oracle(
    ratio: (string, string) -> Score,
    parseBirthday: string -> Option<Date>)

  /** A freshly created person with only the two names set. */
  function NewContact(first: string, last: string): (c: Contact)
    ensures c.first == first && c.last == last
    ensures c.phones == [] && c.emails == [] && c.birthday.None?
  {
    Contact(first, last, [], [], None)
  }

  /** What a row's processing did; the source prints one line for most. */
  datatype Outcome =
    | Created
    | CreateDeclined
    | Updated(index: nat)
    | UpdateDeclined(index: nat)
    | NothingToUpdate(index: nat)
    | Skipped

  /** An exception that escapes the batch: `date.replace(year=1900)` on a
      29 February, since 1900 is not a leap year. */
  datatype Failure = InvalidPlaceholderDate(date: Date)

  datatype Result<+T> = Ok(value: T) | Abort(failure: Failure)

  /** The mutable world one row sees: the address book and the operator's
      remaining answers. */
  datatype State = State(store: Store, answers: seq<bool>)

  /** Neither engine ever removes a phone or an email, and neither renames
      a contact: each list `before` has is a prefix of the one `after` has. */
  predicate KeepsValues(before: Contact, after: Contact) {
    && after.first == before.first
    && after.last == before.last
    && IsPrefix(before.phones, after.phones)
    && IsPrefix(before.emails, after.emails)
  }

  /** Every contact of `before` is still at its position in `after`, with
      its values kept; `after` may have more contacts at the end. */
  predicate StoreKeepsValues(before: Store, after: Store) {
    |before| <= |after| && forall i :: 0 <= i < |before| ==> KeepsValues(before[i], after[i])
  }

  lemma StoreKeepsValuesTransitive(a: Store, b: Store, c: Store)
    requires StoreKeepsValues(a, b) && StoreKeepsValues(b, c)
    ensures StoreKeepsValues(a, c)
  {
    forall i | 0 <= i < |a|
      ensures KeepsValues(a[i], c[i])
    {
      assert KeepsValues(a[i], b[i]) && KeepsValues(b[i], c[i]);
    }
  }

  predicate Increasing(r: seq<nat>) {
    forall i, j :: 0 <= i < j < |r| ==> r[i] < r[j]
  }

  /** Each entry of a strictly increasing sequence of naturals is at
      least its own position. */
  lemma {:induction false} IncreasingAtLeastIndex(r: seq<nat>, i: nat)
    requires Increasing(r) && i < |r|
    ensures r[i] >= i
    decreases i
  {
    if i > 0 {
      IncreasingAtLeastIndex(r, i - 1);
    }
  }

  /** The scan both engines make over the address book: the positions
      among the first `n` contacts that pass `keep`, in store order. */
  function MatchingIndices(store: Store, keep: Contact -> bool, n: nat): (r: seq<nat>)
    requires n <= |store|
    ensures Increasing(r)
    ensures forall j :: 0 <= j < |r| ==> r[j] < n
    ensures forall k: nat :: k in r <==> k < n && keep(store[k])
    decreases n
  {
    if n == 0 then []
    else MatchingIndices(store, keep, n - 1) + (if keep(store[n - 1]) then [n - 1] else [])
  }

  // ---------------------------------------------------------------------
  // The operator. `confirm_action` reads one reply per question and treats
  // "y" (after strip and lower) as yes. The replies are an injected stream;
  // once it runs dry every further reply reads as an empty line, i.e. no.

  function Answer(answers: seq<bool>, j: nat): bool {
    j < |answers| && answers[j]
  }

  function Drop(answers: seq<bool>, k: nat): (r: seq<bool>)
    ensures |r| == if k <= |answers| then |answers| - k else 0
    ensures r == answers[|answers| - |r|..]
  {
    if k <= |answers| then answers[k..] else []
  }

  /** One `confirm_action` call: the verdict and the replies left over. */
  function Ask(answers: seq<bool>): (r: (bool, seq<bool>))
    ensures r.0 == Answer(answers, 0)
    ensures r.1 == Drop(answers, 1)
  {
    if |answers| == 0 then (false, []) else (answers[0], answers[1..])
  }

  /** The confirmation both engines ask for: one question in skeptical
      mode; automatic mode proceeds unasked. */
  function Confirm(skeptical: bool, answers: seq<bool>): (bool, seq<bool>) {
    if skeptical then Ask(answers) else (true, answers)
  }

  /** `prompt_user_for_match`: asks about each candidate in order and
      returns the first one the operator accepts. One reply is consumed per
      candidate asked, stopping at the first yes. */
  function PromptForMatch(candidates: seq<nat>, answers: seq<bool>): (r: (Option<nat>, seq<bool>))
    ensures |r.1| <= |answers| && r.1 == answers[|answers| - |r.1|..]
    ensures |answers| - |r.1| <= |candidates|
    ensures r.0.Some? ==> |r.1| < |answers| && answers[|answers| - |r.1| - 1]
    ensures r.0.Some? ==> r.0.value == candidates[|answers| - |r.1| - 1]
    ensures forall j :: 0 <= j < |answers| - |r.1| - 1 ==> !answers[j]
    ensures r.0.None? ==> forall j :: 0 <= j < |candidates| ==> !Answer(answers, j)
    ensures r.0.None? ==> |r.1| == |answers| - |candidates| || |r.1| == 0
    decreases |candidates|
  {
    if |candidates| == 0 then (None, answers)
    else
      var (yes, rest) := Ask(answers);
      if yes then (Some(candidates[0]), rest)
      else
        var r' := PromptForMatch(candidates[1..], rest);
        AfterFirstNo(answers, |candidates|, r'.1);
        if r'.0.Some? then r'
        else
          AllNoAfterFirstNo(answers, |candidates|);
          r'
  }

  /** After a first no, the replies the later questions leave are a suffix
      of the original replies, and every reply consumed before the last
      one was a no. */
  lemma AfterFirstNo(answers: seq<bool>, n: nat, left: seq<bool>)
    requires n > 0 && !Answer(answers, 0)
    requires |left| <= |Drop(answers, 1)| && left == Drop(answers, 1)[|Drop(answers, 1)| - |left|..]
    requires |Drop(answers, 1)| - |left| <= n - 1
    requires forall j :: 0 <= j < |Drop(answers, 1)| - |left| - 1 ==> !Drop(answers, 1)[j]
    ensures |left| <= |answers| && left == answers[|answers| - |left|..]
    ensures |answers| - |left| <= n
    ensures forall j :: 0 <= j < |answers| - |left| - 1 ==> !answers[j]
  {
    if |answers| > 0 {
      var tail := Drop(answers, 1);
      assert tail == answers[1..];
      assert answers[|answers| - |left|..] == tail[|tail| - |left|..];
      forall j | 0 <= j < |answers| - |left| - 1
        ensures !answers[j]
      {
        if j > 0 {
          assert answers[j] == tail[j - 1];
        }
      }
    }
  }

  /** If the first reply is no and the next `n - 1` are no, the first `n` are. */
  lemma AllNoAfterFirstNo(answers: seq<bool>, n: nat)
    requires !Answer(answers, 0)
    requires forall j :: 0 <= j < n - 1 ==> !Answer(Drop(answers, 1), j)
    ensures forall j :: 0 <= j < n ==> !Answer(answers, j)
  {
    forall j | 0 <= j < n
      ensures !Answer(answers, j)
    {
      if j > 0 {
        assert Answer(answers, j) == Answer(Drop(answers, 1), j - 1);
      }
    }
  }

  /** One row's processing: the world after it and what it did. */
  datatype Step = Step(state: State, outcome: Outcome)

  /** A batch: the world after it and one outcome per visited row. */
  datatype Run = Run(state: State, outcomes: seq<Outcome>)

  /** An outcome that wrote to the address book. */
  predicate Wrote(outcome: Outcome) {
    outcome.Created? || outcome.Updated?
  }

  /** An outcome in which the operator said no. */
  predicate Declined(outcome: Outcome) {
    outcome.CreateDeclined? || outcome.UpdateDeclined?
  }

  /** How many of a batch's outcomes created a contact. */
  function CreatedCount(outcomes: seq<Outcome>): nat {
    if outcomes == [] then 0 else (if outcomes[0].Created? then 1 else 0) + CreatedCount(outcomes[1..])
  }

  predicate NoneDeclined(outcomes: seq<Outcome>) {
    forall j :: 0 <= j < |outcomes| ==> !Declined(outcomes[j])
  }

  predicate NoneWrote(outcomes: seq<Outcome>) {
    forall j :: 0 <= j < |outcomes| ==> !Wrote(outcomes[j])
  }

  predicate AllWrote(outcomes: seq<Outcome>) {
    forall j :: 0 <= j < |outcomes| ==> Wrote(outcomes[j])
  }

  /** The batch summaries of a first outcome followed by the rest. */
  lemma OutcomesCons(first: Outcome, rest: seq<Outcome>)
    ensures CreatedCount([first] + rest) == (if first.Created? then 1 else 0) + CreatedCount(rest)
    ensures NoneDeclined([first] + rest) <==> !Declined(first) && NoneDeclined(rest)
    ensures NoneWrote([first] + rest) <==> !Wrote(first) && NoneWrote(rest)
    ensures AllWrote([first] + rest) <==> Wrote(first) && AllWrote(rest)
  {
    var all := [first] + rest;
    assert all[0] == first && all[1..] == rest;
    assert forall j :: 0 <= j < |rest| ==> all[j + 1] == rest[j];
  }

  /** One step followed by the run over the remaining rows: the created
      contacts add up, and untouched books compose. */
  lemma StepThenRun(before: Store, step: Step, run: Run)
    requires |step.state.store| == |before| + (if step.outcome.Created? then 1 else 0)
    requires !Wrote(step.outcome) ==> step.state.store == before
    requires |run.state.store| == |step.state.store| + CreatedCount(run.outcomes)
    requires NoneWrote(run.outcomes) ==> run.state.store == step.state.store
    ensures |run.state.store| == |before| + CreatedCount([step.outcome] + run.outcomes)
    ensures NoneWrote([step.outcome] + run.outcomes) ==> run.state.store == before
  {
    OutcomesCons(step.outcome, run.outcomes);
  }

  /** The limit left after `done` rows have been visited. */
  function Remaining(limit: Option<int>, done: nat): Option<int> {
    match limit
    case None => None
    case Some(l) => Some(l - done)
  }

  /** How many rows the loop visits: rows are numbered from 1 and the loop
      stops at the first one numbered above the limit, if there is one. */
  function VisitCount(limit: Option<int>, rowCount: nat): (n: nat)
    ensures n <= rowCount
    ensures limit.None? ==> n == rowCount
    ensures limit.Some? ==> n <= limit.value || n == 0
    ensures limit.Some? && n < rowCount ==> n + 1 > limit.value
  {
    match limit
    case None => rowCount
    case Some(l) => if l <= 0 then 0 else if l < rowCount then l else rowCount
  }

  /** The row numbered `done + 1` is visited: one visit, then the rest. */
  lemma VisitCountStep(limit: Option<int>, done: nat, rowCount: nat)
    requires rowCount > 0 && !(limit.Some? && done + 1 > limit.value)
    ensures VisitCount(Remaining(limit, done), rowCount) == 1 + VisitCount(Remaining(limit, done + 1), rowCount - 1)
  {
  }

  /** The row numbered `done + 1` is past the limit: nothing is visited. */
  lemma VisitCountStop(limit: Option<int>, done: nat, rowCount: nat)
    requires limit.Some? && done + 1 > limit.value
    ensures VisitCount(Remaining(limit, done), rowCount) == 0
  {
  }
}

=== FILE: text.dfy ===
/** Character and string helpers shared by the phone, name and summary logic.
    Python's `str.strip()` and `str.lower()` are modelled on the ASCII range. */
module Text {

  predicate IsDigit(c: char) {
    '0' <= c <= '9'
  }

  /** Python's `str.isspace`, restricted to ASCII: tab through carriage
      return, the four information separators 0x1C-0x1F, and space. */
  predicate IsSpace(c: char) {
    var n := c as int;
    n == 32 || 9 <= n <= 13 || 28 <= n <= 31
  }

  predicate AllDigits(s: string) {
    forall i :: 0 <= i < |s| ==> IsDigit(s[i])
  }

  predicate StartsWith(s: string, c: char) {
    |s| > 0 && s[0] == c
  }

  predicate IsPrefix<T(==)>(a: seq<T>, b: seq<T>) {
    |a| <= |b| && a == b[..|a|]
  }

  function LowerChar(c: char): char {
    if 'A' <= c <= 'Z' then (c as int + 32) as char else c
  }

  /** `str.lower()` on ASCII letters; every other character is kept. */
  function Lower(s: string): string {
    seq(|s|, i requires 0 <= i < |s| => LowerChar(s[i]))
  }

  /** Leading whitespace removed (the left half of `str.strip()`). */
  function TrimStart(s: string): (r: string)
    ensures |r| <= |s| && r == s[|s| - |r|..]
    ensures forall i :: 0 <= i < |s| - |r| ==> IsSpace(s[i])
    ensures r == [] || !IsSpace(r[0])
  {
    if |s| > 0 && IsSpace(s[0]) then TrimStart(s[1..]) else s
  }

  /** Trailing whitespace removed (the right half of `str.strip()`). */
  function TrimEnd(s: string): (r: string)
    ensures |r| <= |s| && r == s[..|r|]
    ensures forall i :: |r| <= i < |s| ==> IsSpace(s[i])
    ensures r == [] || !IsSpace(r[|r| - 1])
  {
    if |s| > 0 && IsSpace(s[|s| - 1]) then TrimEnd(s[..|s| - 1]) else s
  }

  /** `r` is the slice of `s` starting at `at`, and every character of `s`
      before or after that slice is whitespace. */
  predicate SpaceAround(s: string, at: int, r: string) {
    && 0 <= at && at + |r| <= |s| && r == s[at..at + |r|]
    && (forall k :: 0 <= k < at ==> IsSpace(s[k]))
    && (forall k :: at + |r| <= k < |s| ==> IsSpace(s[k]))
  }

  /** Python's `str.strip()`: a slice of `s` surrounded only by whitespace,
      with no whitespace at either of its own ends. */
  function Strip(s: string): (r: string)
    ensures |r| <= |s|
    ensures r == [] || (!IsSpace(r[0]) && !IsSpace(r[|r| - 1]))
    ensures exists at :: SpaceAround(s, at, r)
  {
    TrimBothAround(s);
    TrimEnd(TrimStart(s))
  }

  /** Trimming both ends leaves the slice that starts after the leading
      whitespace. */
  lemma TrimBothAround(s: string)
    ensures SpaceAround(s, |s| - |TrimStart(s)|, TrimEnd(TrimStart(s)))
  {
    TrimmedSlice(s, TrimStart(s), TrimEnd(TrimStart(s)));
  }

  /** A whitespace-led suffix `t` of `s`, then a whitespace-trailed prefix
      `r` of `t`: `r` is a slice of `s` with only whitespace around it. */
  lemma TrimmedSlice(s: string, t: string, r: string)
    requires |t| <= |s| && t == s[|s| - |t|..]
    requires forall i :: 0 <= i < |s| - |t| ==> IsSpace(s[i])
    requires |r| <= |t| && r == t[..|r|]
    requires forall i :: |r| <= i < |t| ==> IsSpace(t[i])
    ensures SpaceAround(s, |s| - |t|, r)
  {
    var at := |s| - |t|;
    assert r == s[at..at + |r|];
    forall k | at + |r| <= k < |s|
      ensures IsSpace(s[k])
    {
      assert s[k] == t[k - at];
    }
  }

  lemma LowerConcat(a: string, b: string)
    ensures Lower(a + b) == Lower(a) + Lower(b)
  {
  }

  lemma LowerIdempotent(s: string)
    ensures Lower(Lower(s)) == Lower(s)
  {
  }

  /** Lower-casing never turns a space into a non-space or back. */
  lemma LowerCharKeepsSpace(c: char)
    ensures IsSpace(LowerChar(c)) <==> IsSpace(c)
  {
  }

  lemma {:induction false} TrimStartLower(s: string)
    ensures TrimStart(Lower(s)) == Lower(TrimStart(s))
    decreases |s|
  {
    if |s| > 0 {
      LowerCharKeepsSpace(s[0]);
      if IsSpace(s[0]) {
        assert Lower(s)[1..] == Lower(s[1..]);
        TrimStartLower(s[1..]);
      }
    }
  }

  lemma {:induction false} TrimEndLower(s: string)
    ensures TrimEnd(Lower(s)) == Lower(TrimEnd(s))
    decreases |s|
  {
    if |s| > 0 {
      LowerCharKeepsSpace(s[|s| - 1]);
      if IsSpace(s[|s| - 1]) {
        assert Lower(s)[..|s| - 1] == Lower(s[..|s| - 1]);
        TrimEndLower(s[..|s| - 1]);
      }
    }
  }

  /** Stripping and lower-casing commute, so `x.strip().lower()` and
      `x.lower().strip()` agree. */
  lemma StripLowerCommute(s: string)
    ensures Strip(Lower(s)) == Lower(Strip(s))
  {
    TrimStartLower(s);
    TrimEndLower(TrimStart(s));
  }

  /** A string already free of surrounding whitespace is its own strip. */
  lemma StripOfStripped(s: string)
    requires s == [] || (!IsSpace(s[0]) && !IsSpace(s[|s| - 1]))
    ensures Strip(s) == s
  {
  }

  lemma {:induction false} StripIdempotent(s: string)
    ensures Strip(Strip(s)) == Strip(s)
  {
    StripOfStripped(Strip(s));
  }

  /** Python's `sep.join(lines)`. */
  function Join(lines: seq<string>, sep: string): (r: string)
    ensures |lines| == 1 ==> r == lines[0]
    ensures |lines| > 0 ==> IsPrefix(lines[0], r)
    ensures |r| >= |lines| * |sep| - |sep|
  {
    if |lines| == 0 then ""
    else if |lines| == 1 then lines[0]
    else lines[0] + sep + Join(lines[1..], sep)
  }

  /** `needle` appears in `hay` starting at position `at`. */
  predicate OccursAt(needle: string, hay: string, at: int) {
    0 <= at && at + |needle| <= |hay| && hay[at..at + |needle|] == needle
  }

  /** Python's `needle in hay` on strings. */
  predicate Occurs(needle: string, hay: string) {
    exists at :: 0 <= at <= |hay| && OccursAt(needle, hay, at)
  }

  /** Where line `i` starts in the joined text: after each earlier line and
      the separator that follows it. */
  function LineStart(lines: seq<string>, sep: string, i: nat): nat
    requires i <= |lines|
  {
    if i == 0 then 0 else LineStart(lines, sep, i - 1) + |lines[i - 1]| + |sep|
  }

  lemma {:induction false} LineStartTail(lines: seq<string>, sep: string, i: nat)
    requires 0 < i <= |lines|
    ensures LineStart(lines, sep, i) == |lines[0]| + |sep| + LineStart(lines[1..], sep, i - 1)
  {
    if i > 1 {
      LineStartTail(lines, sep, i - 1);
      assert lines[1..][i - 2] == lines[i - 1];
    }
  }

  /** A string occurs at the front of anything it starts. */
  lemma OccursFront(a: string, b: string)
    ensures OccursAt(a, a + b, 0)
  {
    assert (a + b)[..|a|] == a;
  }

  /** An occurrence in `b` is an occurrence in `a + b`, shifted by `|a|`. */
  lemma OccursShift(a: string, b: string, needle: string, at: int)
    requires OccursAt(needle, b, at)
    ensures OccursAt(needle, a + b, |a| + at)
  {
    assert (a + b)[|a| + at..|a| + at + |needle|] == b[at..at + |needle|];
  }

  /** The joined text of two or more lines: the first line, the separator,
      then the rest joined. */
  lemma JoinCons(lines: seq<string>, sep: string)
    requires |lines| > 1
    ensures Join(lines, sep) == lines[0] + (sep + Join(lines[1..], sep))
    ensures Join(lines, sep) == (lines[0] + sep) + Join(lines[1..], sep)
  {
    assert lines[0] + (sep + Join(lines[1..], sep)) == (lines[0] + sep) + Join(lines[1..], sep);
  }

  /** The first line starts the joined text and, when more follow, the
      separator comes right after it. */
  lemma JoinLayoutFirst(lines: seq<string>, sep: string)
    requires |lines| > 0
    ensures OccursAt(lines[0], Join(lines, sep), 0)
    ensures 1 < |lines| ==> OccursAt(sep, Join(lines, sep), |lines[0]|)
    ensures 1 == |lines| ==> |lines[0]| == |Join(lines, sep)|
  {
    if |lines| > 1 {
      var rest := Join(lines[1..], sep);
      JoinCons(lines, sep);
      OccursFront(lines[0], sep + rest);
      OccursFront(sep, rest);
      OccursShift(lines[0], sep + rest, sep, 0);
    } else {
      OccursFront(lines[0], []);
      assert lines[0] + [] == lines[0];
    }
  }

  /** The layout of the joined text: line `i` sits at `LineStart(lines, sep, i)`,
      the separator follows every line but the last, and the last line ends
      the text. So the lines appear in order, separated by `sep`. */
  lemma {:induction false} JoinLayout(lines: seq<string>, sep: string, i: nat)
    requires i < |lines|
    ensures OccursAt(lines[i], Join(lines, sep), LineStart(lines, sep, i))
    ensures i + 1 < |lines| ==> OccursAt(sep, Join(lines, sep), LineStart(lines, sep, i) + |lines[i]|)
    ensures i + 1 == |lines| ==> LineStart(lines, sep, i) + |lines[i]| == |Join(lines, sep)|
    decreases i
  {
    if i == 0 {
      JoinLayoutFirst(lines, sep);
    } else {
      var tail := lines[1..];
      JoinLayout(tail, sep, i - 1);
      LineStartTail(lines, sep, i);
      JoinCons(lines, sep);
      assert tail[i - 1] == lines[i];
      JoinLayoutStep(lines[0] + sep, Join(tail, sep), lines[i], sep, LineStart(tail, sep, i - 1), i + 1 < |lines|);
    }
  }

  /** One step of the layout: what holds in the rest of the text holds in
      the whole, shifted by the first line and its separator. */
  lemma JoinLayoutStep(head: string, rest: string, line: string, sep: string, at: nat, more: bool)
    requires OccursAt(line, rest, at)
    requires more ==> OccursAt(sep, rest, at + |line|)
    requires !more ==> at + |line| == |rest|
    ensures OccursAt(line, head + rest, |head| + at)
    ensures more ==> OccursAt(sep, head + rest, |head| + at + |line|)
    ensures !more ==> |head| + at + |line| == |head + rest|
  {
    OccursShift(head, rest, line, at);
    if more {
      OccursShift(head, rest, sep, at + |line|);
    }
  }

  /** Three lines joined. */
  lemma JoinThree(a: string, b: string, c: string, sep: string)
    ensures Join([a, b, c], sep) == a + sep + b + sep + c
  {
    assert [a, b, c][1..] == [b, c];
    assert [b, c][1..] == [c];
  }

  /** Every line occurs in the joined text. */
  lemma JoinContains(lines: seq<string>, sep: string)
    ensures forall i :: 0 <= i < |lines| ==> Occurs(lines[i], Join(lines, sep))
  {
    forall i | 0 <= i < |lines|
      ensures Occurs(lines[i], Join(lines, sep))
    {
      JoinLayout(lines, sep, i);
    }
  }

  // ---------------------------------------------------------------------
  // Decimal rendering, as used by strftime's %Y, %m and %d.

  function DigitChar(d: nat): (c: char)
    requires d < 10
    ensures IsDigit(c)
  {
    ('0' as int + d) as char
  }

  function DigitValue(c: char): nat
    requires IsDigit(c)
  {
    c as int - '0' as int
  }

  /** The shortest decimal spelling of `n`. */
  function Decimal(n: nat): (r: string)
    ensures |r| > 0 && AllDigits(r)
    decreases n
  {
    if n < 10 then [DigitChar(n)] else Decimal(n / 10) + [DigitChar(n % 10)]
  }

  /** The number a digit string spells, most significant digit first. */
  function ValueOf(s: string): nat
    requires AllDigits(s)
  {
    if s == [] then 0 else ValueOf(s[..|s| - 1]) * 10 + DigitValue(s[|s| - 1])
  }

  function Zeros(k: nat): (r: string)
    ensures |r| == k && AllDigits(r)
  {
    seq(k, i => '0')
  }

  /** `n` in decimal, left-padded with zeros to at least `width` characters. */
  function ZeroPad(n: nat, width: nat): (r: string)
    ensures AllDigits(r) && |r| >= width
  {
    var d := Decimal(n);
    if |d| >= width then d else Zeros(width - |d|) + d
  }

  lemma {:induction false} DecimalRoundTrip(n: nat)
    ensures ValueOf(Decimal(n)) == n
    decreases n
  {
    if n >= 10 {
      var d := Decimal(n);
      assert d[..|d| - 1] == Decimal(n / 10);
      DecimalRoundTrip(n / 10);
    }
  }

  lemma {:induction false} LeadingZeros(k: nat, s: string)
    requires AllDigits(s)
    ensures ValueOf(Zeros(k) + s) == ValueOf(s)
    decreases |s|
  {
    var z := Zeros(k) + s;
    if s == [] {
      assert z == Zeros(k);
      ZerosValue(k);
    } else {
      assert z[..|z| - 1] == Zeros(k) + s[..|s| - 1];
      LeadingZeros(k, s[..|s| - 1]);
    }
  }

  lemma {:induction false} ZerosValue(k: nat)
    ensures ValueOf(Zeros(k)) == 0
    decreases k
  {
    if k > 0 {
      assert Zeros(k)[..k - 1] == Zeros(k - 1);
      ZerosValue(k - 1);
    }
  }

  /** Padding never changes the number a field spells. */
  lemma ZeroPadRoundTrip(n: nat, width: nat)
    ensures ValueOf(ZeroPad(n, width)) == n
  {
    DecimalRoundTrip(n);
    if |Decimal(n)| < width {
      LeadingZeros(width - |Decimal(n)|, Decimal(n));
    }
  }

  function Pow10(k: nat): nat {
    if k == 0 then 1 else 10 * Pow10(k - 1)
  }

  lemma {:induction false} DecimalLength(n: nat, k: nat)
    requires k > 0 && n < Pow10(k)
    ensures |Decimal(n)| <= k
    decreases n
  {
    if n >= 10 {
      assert k != 1 by {
        assert Pow10(1) == 10;
      }
      assert n / 10 < Pow10(k - 1);
      DecimalLength(n / 10, k - 1);
    }
  }

  /** A value below 10^width pads to exactly `width` characters. */
  lemma ZeroPadExactWidth(n: nat, width: nat)
    requires width > 0 && n < Pow10(width)
    ensures |ZeroPad(n, width)| == width
  {
    DecimalLength(n, width);
  }
}

=== FILE: updater.dfy ===
/** The legacy engine (updater.py): exact, case-sensitive matching on the
    last name (and the first name in skeptical mode), raw-string
    de-duplication of numbers and addresses, and a birthday that the
    incoming date always overwrites. */
module Updater {
  import opened Text
  import opened Records

  /** The test on line 33: an empty incoming last name (a None cell) equals
      no stored name, and an empty first name matches any. */
  predicate LegacyMatches(c: Contact, last: string, first: string) {
    last != "" && last == c.last && (first == "" || first == c.first)
  }

  /** `find_matching_contact(address_book, last_name, first_name)`: the
      positions, in store order, of the contacts with that exact last name
      and, when one is given, that exact first name. */
  function FindMatchingContact(store: Store, last: string, first: string): (r: seq<nat>)
    ensures Increasing(r)
    ensures forall j :: 0 <= j < |r| ==> r[j] < |store|
    ensures forall k: nat :: k in r <==> k < |store| && LegacyMatches(store[k], last, first)
  {
    MatchingIndices(store, c => LegacyMatches(c, last, first), |store|)
  }

  /** Naming a first name only narrows the matches. */
  lemma FirstNameNarrows(store: Store, last: string, first: string, k: nat)
    requires k in FindMatchingContact(store, last, first)
    ensures k in FindMatchingContact(store, last, "")
  {
  }

  /** A row without a last name matches nobody, so in automatic mode it
      creates a new contact every time it is processed. */
  lemma NoLastNameAlwaysCreates(st: State, row: Row, o: Oracle)
    requires row.last == ""
    ensures FindMatchingContact(st.store, row.last, row.first) == []
    ensures UpdateOrCreateContact(st, row, false, o) == Step(State(st.store + [CreateContact(row, o)], st.answers), Created)
  {
    HeadIsMember(FindMatchingContact(st.store, row.last, ""));
    HeadIsMember(FindMatchingContact(st.store, row.last, row.first));
  }

  lemma HeadIsMember(r: seq<nat>)
    ensures r != [] ==> r[0] in r
  {
  }

  /** `add_or_update_phone_number` and `add_or_update_email`: the value is
      appended unless that exact string is already stored; an empty list
      gets a new list holding just the value. */
  function AddIfAbsent(values: seq<string>, value: string): (r: seq<string>)
    ensures IsPrefix(values, r)
    ensures value in r
    ensures |r| == |values| + 1 <==> value !in values
    ensures |r| == |values| || |r| == |values| + 1
  {
    if value in values then values else values + [value]
  }

  /** Adding the same value again changes nothing. */
  lemma AddIfAbsentIdempotent(values: seq<string>, value: string)
    ensures AddIfAbsent(AddIfAbsent(values, value), value) == AddIfAbsent(values, value)
  {
  }

  /** `update_birthday`: a date that parses replaces whatever is stored;
      text that does not parse leaves the birthday alone. */
  function UpdateBirthday(existing: Option<Date>, text: string, o: Oracle): (r: Option<Date>)
    ensures o.parseBirthday(text).Some? ==> r == o.parseBirthday(text)
    ensures o.parseBirthday(text).None? ==> r == existing
  {
    match o.parseBirthday(text)
    case None => existing
    case Some(d) => if existing != Some(d) then Some(d) else existing
  }

  /** The three guarded calls shared by `update_contact` and
      `create_contact`: each non-empty field is applied. */
  function ApplyFields(c: Contact, phone: string, email: string, birthday: string, o: Oracle): (r: Contact)
    ensures KeepsValues(c, r)
    ensures phone == "" ==> r.phones == c.phones
    ensures phone != "" ==> r.phones == AddIfAbsent(c.phones, phone)
    ensures email == "" ==> r.emails == c.emails
    ensures email != "" ==> r.emails == AddIfAbsent(c.emails, email)
    ensures birthday == "" ==> r.birthday == c.birthday
    ensures birthday != "" && o.parseBirthday(birthday).Some? ==> r.birthday == o.parseBirthday(birthday)
    ensures birthday != "" && o.parseBirthday(birthday).None? ==> r.birthday == c.birthday
    ensures r.first == c.first && r.last == c.last
  {
    var phones := if phone != "" then AddIfAbsent(c.phones, phone) else c.phones;
    var emails := if email != "" then AddIfAbsent(c.emails, email) else c.emails;
    var born := if birthday != "" then UpdateBirthday(c.birthday, birthday, o) else c.birthday;
    c.(phones := phones, emails := emails, birthday := born)
  }

  /** Applying a row's fields twice is the same as applying them once. */
  lemma ApplyFieldsIdempotent(c: Contact, phone: string, email: string, birthday: string, o: Oracle)
    ensures var once := ApplyFields(c, phone, email, birthday, o);
      ApplyFields(once, phone, email, birthday, o) == once
  {
  }

  /** `update_contact`: each non-empty cell of the row is applied to the
      contact, and a birthday that parses overwrites the stored one. */
  function UpdateContact(c: Contact, row: Row, o: Oracle): (r: Contact)
    ensures KeepsValues(c, r)
    ensures r.first == c.first && r.last == c.last
    ensures row.phone != "" ==> row.phone in r.phones
    ensures row.email != "" ==> row.email in r.emails
    ensures r.phones == if row.phone != "" then AddIfAbsent(c.phones, row.phone) else c.phones
    ensures r.emails == if row.email != "" then AddIfAbsent(c.emails, row.email) else c.emails
    ensures row.birthday != "" && o.parseBirthday(row.birthday).Some? ==> r.birthday == o.parseBirthday(row.birthday)
    ensures row.birthday == "" || o.parseBirthday(row.birthday).None? ==> r.birthday == c.birthday
  {
    ApplyFields(c, row.phone, row.email, row.birthday, o)
  }

  /** `create_contact`: a contact with the row's two names and its fields. */
  function CreateContact(row: Row, o: Oracle): (r: Contact)
    ensures r.first == row.first && r.last == row.last
    ensures r.phones == (if row.phone != "" then [row.phone] else [])
    ensures r.emails == (if row.email != "" then [row.email] else [])
    ensures row.birthday != "" ==> r.birthday == o.parseBirthday(row.birthday)
    ensures row.birthday == "" ==> r.birthday.None?
  {
    ApplyFields(NewContact(row.first, row.last), row.phone, row.email, row.birthday, o)
  }

  /** Lines 43-49: skeptical mode matches on both names and always asks,
      even about no match at all; automatic mode matches on the last name
      alone, takes a sole match and asks when there are several. */
  function LegacySelect(st: State, row: Row, skeptical: bool): (r: (Option<nat>, seq<bool>))
    ensures r.0.Some? ==> r.0.value in FindMatchingContact(st.store, row.last, if skeptical then row.first else "")
    ensures r.0.Some? ==> r.0.value < |st.store|
    ensures !skeptical && |FindMatchingContact(st.store, row.last, "")| <= 1 ==> r.1 == st.answers
    ensures !skeptical && |FindMatchingContact(st.store, row.last, "")| == 1 ==>
      r.0 == Some(FindMatchingContact(st.store, row.last, "")[0])
    ensures !skeptical && |FindMatchingContact(st.store, row.last, "")| > 1 ==>
      r == PromptForMatch(FindMatchingContact(st.store, row.last, ""), st.answers)
    ensures skeptical ==> r == PromptForMatch(FindMatchingContact(st.store, row.last, row.first), st.answers)
  {
    var matches := FindMatchingContact(st.store, row.last, if skeptical then row.first else "");
    if skeptical || |matches| > 1 then PromptForMatch(matches, st.answers)
    else if |matches| == 1 then (Some(matches[0]), st.answers)
    else (None, st.answers)
  }

  /** Lines 51-57: in skeptical mode the operator confirms the update
      first; otherwise the selected contact is updated outright. */
  function UpdateSelected(store: Store, k: nat, answers: seq<bool>, row: Row, skeptical: bool, o: Oracle): (r: Step)
    requires k < |store|
    ensures r.outcome == Updated(k) || r.outcome == UpdateDeclined(k)
    ensures r.outcome.Updated? ==> r.state.store == store[k := UpdateContact(store[k], row, o)]
    ensures r.outcome.UpdateDeclined? ==> r.state.store == store
    ensures StoreKeepsValues(store, r.state.store) && |r.state.store| == |store|
    ensures !skeptical ==> r == Step(State(store[k := UpdateContact(store[k], row, o)], answers), Updated(k))
    ensures skeptical ==> (r.outcome.Updated? <==> Answer(answers, 0)) && r.state.answers == Drop(answers, 1)
  {
    var (yes, rest) := Confirm(skeptical, answers);
    if !yes then Step(State(store, rest), UpdateDeclined(k))
    else Step(State(store[k := UpdateContact(store[k], row, o)], rest), Updated(k))
  }

  /** Lines 58-63: in skeptical mode the operator confirms the creation
      first; otherwise the row's contact is appended. */
  function CreateNew(store: Store, answers: seq<bool>, row: Row, skeptical: bool, o: Oracle): (r: Step)
    ensures r.outcome == Created || r.outcome == CreateDeclined
    ensures r.outcome.Created? ==> r.state.store == store + [CreateContact(row, o)]
    ensures r.outcome.CreateDeclined? ==> r.state.store == store
    ensures StoreKeepsValues(store, r.state.store)
    ensures !skeptical ==> r == Step(State(store + [CreateContact(row, o)], answers), Created)
    ensures skeptical ==> (r.outcome.Created? <==> Answer(answers, 0)) && r.state.answers == Drop(answers, 1)
  {
    var (yes, rest) := Confirm(skeptical, answers);
    if !yes then Step(State(store, rest), CreateDeclined)
    else Step(State(store + [CreateContact(row, o)], rest), Created)
  }

  /** `update_or_create_contact` (legacy). Every selected contact is
      updated (after a confirmation in skeptical mode), whether or not the
      row changes it; with no selection a contact is created. */
  function UpdateOrCreateContact(st: State, row: Row, skeptical: bool, o: Oracle): (r: Step)
    ensures StoreKeepsValues(st.store, r.state.store)
    ensures r.outcome.Created? ==> r.state.store == st.store + [CreateContact(row, o)]
    ensures r.outcome.Updated? ==>
      r.outcome.index < |st.store| && r.state.store == st.store[r.outcome.index := UpdateContact(st.store[r.outcome.index], row, o)]
    ensures r.outcome.CreateDeclined? || r.outcome.UpdateDeclined? ==> r.state.store == st.store
    ensures r.outcome.Created? || r.outcome.Updated? || r.outcome.CreateDeclined? || r.outcome.UpdateDeclined?
    ensures r.outcome.Updated? || r.outcome.UpdateDeclined? ==>
      r.outcome.index in FindMatchingContact(st.store, row.last, if skeptical then row.first else "")
    ensures !skeptical ==> r.outcome.Created? || r.outcome.Updated?
    ensures !skeptical ==> r.state.answers == LegacySelect(st, row, skeptical).1
    ensures var selection := LegacySelect(st, row, skeptical);
      && (selection.0.Some? <==> r.outcome.Updated? || r.outcome.UpdateDeclined?)
      && (selection.0.Some? ==> r.outcome.index == selection.0.value)
    ensures var selection := LegacySelect(st, row, skeptical);
      skeptical ==>
        && (r.outcome.Updated? || r.outcome.Created? <==> Answer(selection.1, 0))
        && r.state.answers == Drop(selection.1, 1)
  {
    var (selected, answers) := LegacySelect(st, row, skeptical);
    match selected
    case Some(k) => UpdateSelected(st.store, k, answers, row, skeptical, o)
    case None => CreateNew(st.store, answers, row, skeptical, o)
  }

  /** In automatic mode a row whose last name matches no contact creates
      one, and a row whose last name matches exactly one updates it, with
      no question asked either way. */
  lemma AutomaticUnambiguous(st: State, row: Row, o: Oracle)
    ensures var matches := FindMatchingContact(st.store, row.last, "");
      |matches| == 0 ==> (UpdateOrCreateContact(st, row, false, o)
        == Step(State(st.store + [CreateContact(row, o)], st.answers), Created))
    ensures var matches := FindMatchingContact(st.store, row.last, "");
      |matches| == 1 ==> (UpdateOrCreateContact(st, row, false, o)
        == Step(State(st.store[matches[0] := UpdateContact(st.store[matches[0]], row, o)], st.answers), Updated(matches[0])))
  {
  }

  /** What one legacy step does to the address book: a creation appends
      the row's contact, an update replaces the updated contact by its
      update from the row, and a decline leaves the book alone. */
  predicate StepEffect(before: Store, row: Row, o: Oracle, step: Step) {
    && (step.outcome.Created? ==> step.state.store == before + [CreateContact(row, o)])
    && (step.outcome.Updated? ==>
          && step.outcome.index < |before|
          && step.state.store == before[step.outcome.index := UpdateContact(before[step.outcome.index], row, o)])
    && (!Wrote(step.outcome) ==> step.state.store == before)
  }

  /** One visited row: the legacy loop skips none and decides each row as
      `update_or_create_contact` does. */
  function ProcessRow(st: State, row: Row, skeptical: bool, o: Oracle): (r: Step)
    ensures !r.outcome.Skipped?
    ensures StoreKeepsValues(st.store, r.state.store)
    ensures StepEffect(st.store, row, o, r)
    ensures !skeptical ==> Wrote(r.outcome)
    ensures var selection := LegacySelect(st, row, skeptical);
      && (selection.0.Some? <==> r.outcome.Updated? || r.outcome.UpdateDeclined?)
      && (selection.0.Some? ==> r.outcome.index == selection.0.value)
  {
    UpdateOrCreateContact(st, row, skeptical, o)
  }

  /** The legacy row loop from row number `done + 1` on: no row is
      skipped, and the same limit check as the current engine. */
  function ProcessRows(st: State, rows: seq<Row>, done: nat, limit: Option<int>, skeptical: bool, o: Oracle)
    : (r: Run)
    ensures |r.outcomes| == VisitCount(Remaining(limit, done), |rows|)
    ensures forall j :: 0 <= j < |r.outcomes| ==> !r.outcomes[j].Skipped?
    ensures StoreKeepsValues(st.store, r.state.store)
    decreases |rows|
  {
    if rows == [] then Run(st, [])
    else if limit.Some? && done + 1 > limit.value then
      VisitCountStop(limit, done, |rows|);
      Run(st, [])
    else
      VisitCountStep(limit, done, |rows|);
      var step := ProcessRow(st, rows[0], skeptical, o);
      var run := ProcessRows(step.state, rows[1..], done + 1, limit, skeptical, o);
      StoreKeepsValuesTransitive(st.store, step.state.store, run.state.store);
      NoSkipPrepend(step.outcome, run.outcomes);
      Run(run.state, [step.outcome] + run.outcomes)
  }

  /** What a legacy batch did to the book: it grew by exactly the contacts
      created, automatic mode wrote on every row, and a batch that neither
      created nor updated left the book as it was. */
  lemma {:induction false} BatchEffects(st: State, rows: seq<Row>, done: nat, limit: Option<int>,
                                        skeptical: bool, o: Oracle)
    ensures var r := ProcessRows(st, rows, done, limit, skeptical, o);
      |r.state.store| == |st.store| + CreatedCount(r.outcomes)
    ensures var r := ProcessRows(st, rows, done, limit, skeptical, o);
      !skeptical ==> AllWrote(r.outcomes)
    ensures var r := ProcessRows(st, rows, done, limit, skeptical, o);
      NoneWrote(r.outcomes) ==> r.state.store == st.store
    decreases |rows|
  {
    if rows != [] && !(limit.Some? && done + 1 > limit.value) {
      var step := ProcessRow(st, rows[0], skeptical, o);
      BatchEffects(step.state, rows[1..], done + 1, limit, skeptical, o);
      var run := ProcessRows(step.state, rows[1..], done + 1, limit, skeptical, o);
      StepThenRun(st.store, step, run);
      OutcomesCons(step.outcome, run.outcomes);
    }
  }

  lemma NoSkipPrepend(first: Outcome, rest: seq<Outcome>)
    requires !first.Skipped? && forall j :: 0 <= j < |rest| ==> !rest[j].Skipped?
    ensures forall j :: 0 <= j < |[first] + rest| ==> !([first] + rest)[j].Skipped?
  {
  }

  /** `process_contacts` (legacy) over the data rows. */
  function ProcessContacts(store: Store, rows: seq<Row>, skeptical: bool, limit: Option<int>,
                           answers: seq<bool>, o: Oracle): (r: Run)
    ensures |r.outcomes| == VisitCount(limit, |rows|)
    ensures forall j :: 0 <= j < |r.outcomes| ==> !r.outcomes[j].Skipped?
    ensures StoreKeepsValues(store, r.state.store)
    ensures |r.state.store| == |store| + CreatedCount(r.outcomes)
    ensures !skeptical ==> AllWrote(r.outcomes)
    ensures NoneWrote(r.outcomes) ==> r.state.store == store
  {
    assert Remaining(limit, 0) == limit;
    BatchEffects(State(store, answers), rows, 0, limit, skeptical, o);
    ProcessRows(State(store, answers), rows, 0, limit, skeptical, o)
  }
}
